=== FILE: README.md ===
# Space shooter game rules in Dafny

This project models the rule bookkeeping of a top-down space shooter made in
Unity. The parts that are not engine plumbing are modelled and proved:

- the player's level curve and `AddXP`, which can level up several times from one burst;
- XP orbs: an enemy's XP is split among a random number of orbs, and the upgrade stat boosts what an orb is worth;
- the ship's `Health`: the dodge roll, damage floored at zero, a single death, regeneration through a fractional bank, and rescaling when the health-bonus upgrade changes the maximum;
- the auto-firing `ShipWeapon`: its cadence, its damage and its closest-target scan;
- contact damage from enemies, the enemy registry, and the spawner's timer, ramp and offscreen perimeter point;
- a training dummy;
- the level-up overlay: two upgrade tables, three distinct offers from a partial Fisher–Yates shuffle, applying a pick, and the pause/resume of the game's time scale;
- the procedural asteroid field: spacing by rejection sampling, the parallax follow and the infinite wrap.

Each component whose fields the game updates in place is a Dafny `class`.
Its methods carry `modifies` clauses and its queries carry `reads` clauses.
Events raised to subscribers are recorded in a ghost `events` log.
Pure helpers are functions, and the game's loops are `while`/`for` loops with invariants.
Everything that comes from the engine is a method parameter:

- random draws (`Random.Range`, `Random.value`, `rng.Next`);
- `Time.time` and `Time.deltaTime`;
- the results of physics queries;
- whether a scene object or prefab is present.

Single-precision floats are modelled as `real`. Mathf's rounding functions are written out exactly:

- `Mathf.RoundToInt` rounds halves to the even neighbour;
- `Mathf.FloorToInt`;
- `Mathf.Clamp01`;
- `Mathf.Approximately`.

C#'s truncating integer division is written out as `XPDrop.Quot`.

Files: `mathf.dfy` (Unity maths), `wrappers.dfy` (`Option`),
`player_upgrades.dfy`, `player_xp.dfy`, `xp_orbs.dfy`, `drop_xp.dfy`,
`upgrade_system.dfy`, `level_up_overlay.dfy`, `health.dfy`,
`ship_weapon.dfy`, `contact_damage.dfy`, `enemy_registry.dfy`,
`enemy_spawner.dfy`, `dummy_target.dfy`, `asteroid_field.dfy`.

## Model

| member | source | states |
|---|---|---|
| Mathf.RoundToInt | Assets/Scripts/PlayerXP.cs:59 | the result is within one half of the argument, and an exact half goes to the even neighbour |
| Mathf.FloorToInt | Assets/Scripts/Health.cs:106 | the result is the largest integer not above the argument |
| Mathf.Clamp01 | Assets/Scripts/PlayerXP.cs:53 | the result lies in [0, 1]; it is the argument when that is already in range, otherwise the nearer bound |
| Mathf.ClampInt | Assets/Scripts/Health.cs:133 | the result lies in [lo, hi] and is the value itself when that is in range |
| Stats.PercentMultiplier | Assets/Scripts/PlayerUpgrades.cs:17-23 | a zero stat gives factor 1; the factor is above 1 exactly for positive stats, below 1 exactly for negative ones, and 0 exactly at -100 % |
| Stats.PercentMultiplierMonotone | Assets/Scripts/PlayerUpgrades.cs:17-23 | a larger percentage never gives a smaller multiplier |
| Stats.PercentMultiplierStacks | Assets/Scripts/LevelUpOverlayController.cs:366-395 | upgrades add percentages, so stacking q % onto p % adds q/100 to the factor |
| Stats.ScaledAtLeastOne | Assets/Scripts/Health.cs:130 | a stat scaled and rounded is at least 1, equals the base when the bonus is zero, is within one half of base · multiplier when above 1, and is 1 only when base · multiplier is at most 1.5 |
| Stats.ScaledAtLeastOneMonotone | Assets/Scripts/Health.cs:130 | for a non-negative base, a larger bonus never gives a smaller scaled stat |
| Stats.PlayerUpgrades.constructor | Assets/Scripts/PlayerUpgrades.cs:5-13 | every stat of a fresh component is zero |
| Stats.PlayerUpgrades.DodgeChance01 | Assets/Scripts/PlayerUpgrades.cs:15 | the dodge probability lies in [0, 1]: 0 at or below 0 %, 1 at or above 100 %, pct/100 in between |
| Stats.PlayerUpgrades.HealthRegenPerSec | Assets/Scripts/PlayerUpgrades.cs:18 | regeneration from upgrades is never negative and equals the stat when the stat is non-negative |
| Progression.LevelUps | Assets/Scripts/PlayerXP.cs:43 | k announcements, every one of them `LeveledUp` |
| Progression.PlayerXP.Awake | Assets/Scripts/PlayerXP.cs:25-28 | the threshold starts as the curve's value at the starting level, for any starting level and tuning whose curve costs at least one XP per level from there on |
| Progression.PlayerXP.GetXPToNextLevel | Assets/Scripts/PlayerXP.cs:56-60 | with a non-negative curve, every level costs at least `baseXP`, and level 1 costs exactly `baseXP` |
| Progression.CurveGrowth | Assets/Scripts/PlayerXP.cs:56-60 | the growth terms vanish at level 1 and, when non-negative, never pull the rounded threshold below `baseXP` |
| Progression.TunedCurvePays | Assets/Scripts/PlayerXP.cs:21-23 | a non-negative curve over a base of at least one XP costs at least one XP at every level from 1 on |
| Progression.ZeroCurveNeverStops | Assets/Scripts/PlayerXP.cs:37-44 | with a curve that is zero everywhere, the loop's guard still holds after every pass, so `AddXP` never returns |
| Progression.PlayerXP.ConsumedAtLeast | Assets/Scripts/PlayerXP.cs:37-44 | climbing n levels costs at least n · `baseXP` XP |
| Progression.PlayerXP.ConsumedSplit | Assets/Scripts/PlayerXP.cs:37-44 | the XP cost of a climb is additive over consecutive stretches |
| Progression.PlayerXP.AddXP | Assets/Scripts/PlayerXP.cs:30-47 | a non-positive amount changes nothing. Otherwise XP is conserved: old XP plus the amount equals the thresholds of the levels climbed plus the new XP. The leftover is below the new threshold and, after any climb, not negative: no level is climbed that the XP did not pay for. The threshold stays the curve's, and one `LeveledUp` per level is followed by one `Changed` |
| Progression.PlayerXP.Progress01 | Assets/Scripts/PlayerXP.cs:49-54 | the bar fill lies in [0, 1], is 0 without a positive threshold, and is exactly current/threshold when the XP is within range |
| XPOrbs.GainedXP | Assets/Scripts/XPOrbs.cs:47-54 | without upgrades or with a zero stat the orb is worth its amount; otherwise the worth is at least 1, within one half of amount · multiplier when above 1, and 1 only when amount · multiplier is at most 1.5 |
| XPOrbs.GainedXPNotBelowAmount | Assets/Scripts/XPOrbs.cs:47-54 | a positive XP-gain stat never makes a positive orb worth less than its amount |
| XPOrbs.XPOrb.constructor | Assets/Scripts/XPOrbs.cs:16 | the orb carries the given amount |
| XPOrbs.XPOrb.SetAmount | Assets/Scripts/XPOrbs.cs:16 | the orb now carries `v` |
| XPOrbs.XPOrb.OnTriggerEnter | Assets/Scripts/XPOrbs.cs:41-59 | with no `PlayerXP` the orb stays; otherwise the player gains exactly `GainedXP` (with the full `AddXP` contract) and the orb is destroyed |
| XPDrop.Quot | Assets/Scripts/DropXPOnDeath.cs:35 | the quotient rounded toward zero: q·b ≤ a < q·b + b for a non-negative dividend, and q·b − b < a ≤ q·b (so q ≤ 0) for a negative one |
| XPDrop.QuotOdd | Assets/Scripts/DropXPOnDeath.cs:35 | negating the dividend negates the quotient, as truncating division does |
| XPDrop.Shares | Assets/Scripts/DropXPOnDeath.cs:38-40 | n shares, share k being `baseAmt` plus one exactly when k is below the remainder |
| XPDrop.SharesSum | Assets/Scripts/DropXPOnDeath.cs:38-40 | the shares add up to n base amounts plus one for each share below the remainder |
| XPDrop.SplitSum | Assets/Scripts/DropXPOnDeath.cs:35-40 | the orbs carry exactly the enemy's XP when there are at most that many orbs, and one XP per orb otherwise |
| XPDrop.Split | Assets/Scripts/DropXPOnDeath.cs:35-40 | one share per orb and each at least 1. The shares are as even as possible, larger ones first. They add up to the XP when the orbs do not outnumber it; otherwise every orb carries 1 |
| XPDrop.DropXPOnDeath.HandleDied | Assets/Scripts/DropXPOnDeath.cs:29-48 | no prefab, no orbs. Otherwise the drawn number of orbs, within [minOrbs, maxOrbs], carries exactly `Split(xpAmount, orbs)` in spawn order |
| UpgradeSystem.RarityIndex | Assets/Scripts/UpgradeSystem.cs:31 | the ordinal lies in 0..3, with Normal first and Legendary last |
| UpgradeSystem.ValuesByRarity | Assets/Scripts/UpgradeSystem.cs:17-26 | every row has four positive values, strictly increasing with rarity |
| UpgradeSystem.GetValue | Assets/Scripts/UpgradeSystem.cs:30-31 | every (type, rarity) pair has a positive value, and any rarer tier of the same type is worth strictly more |
| UpgradeSystem.DamageIsTheOnlyFlatUpgrade | Assets/Scripts/UpgradeSystem.cs:28 | an upgrade is not a percentage exactly when it is Damage |
| UpgradeSystem.RollRarity | Assets/Scripts/UpgradeSystem.cs:33-41 | each rarity is returned for exactly its band of rolls: [0,50), [50,80), [80,95), [95,100) |
| UpgradeSystem.RollsGivingUpTo | Assets/Scripts/UpgradeSystem.cs:33-41 | how many of the first n rolls give each rarity |
| UpgradeSystem.RarityWeights | Assets/Scripts/UpgradeSystem.cs:33-41 | of the 100 equally likely rolls, 50, 30, 15 and 5 give Normal, Rare, Epic and Legendary |
| LevelUpOverlay.AllTypes | Assets/Scripts/LevelUpOverlayController.cs:109 | eight distinct upgrade types |
| LevelUpOverlay.AllTypesComplete | Assets/Scripts/LevelUpOverlayController.cs:53-63 | every enum value is in `AllTypes`, so every type can be offered |
| LevelUpOverlay.RarityIndex | Assets/Scripts/LevelUpOverlayController.cs:277 | the ordinal indexes a four-entry row |
| LevelUpOverlay.ValuesByRarity | Assets/Scripts/LevelUpOverlayController.cs:80-90 | every row has four positive values, strictly increasing with rarity |
| LevelUpOverlay.HealthRegenIsTheOnlyFlatUpgrade | Assets/Scripts/LevelUpOverlayController.cs:92-96 | an upgrade is shown flat exactly when it is HealthRegen |
| LevelUpOverlay.RollRarity | Assets/Scripts/LevelUpOverlayController.cs:98-106 | each rarity is returned for exactly its band of rolls |
| LevelUpOverlay.TitleFor | Assets/Scripts/LevelUpOverlayController.cs:342-352 | every type other than HealthRegen gets its own title, not the fallback |
| LevelUpOverlay.HealthRegenTitleIsFallback | Assets/Scripts/LevelUpOverlayController.cs:342-352 | as written, the HealthRegen card is titled "Upgrade", a title no other type shares |
| LevelUpOverlay.TitleForCorrected | Assets/Scripts/LevelUpOverlayController.cs:342-352 | agrees with `TitleFor` on the seven titled types and never falls back to "Upgrade" |
| LevelUpOverlay.TitlesDistinct | Assets/Scripts/LevelUpOverlayController.cs:342-352 | with the corrected titles, different types have different titles |
| LevelUpOverlay.TablesAgree | Assets/Scripts/LevelUpOverlayController.cs:80-90 | the overlay's table and `UpgradeSystem`'s hold the same value for every shared type and rarity |
| LevelUpOverlay.RollsAgree | Assets/Scripts/LevelUpOverlayController.cs:98-106 | both rarity rolls map every draw to the same rarity |
| LevelUpOverlay.PercentFlagsDisagree | Assets/Scripts/LevelUpOverlayController.cs:92-96 | `UpgradeSystem` shows Damage flat while the overlay shows it as a percentage |
| LevelUpOverlay.Iota | Assets/Scripts/LevelUpOverlayController.cs:263-264 | position i holds i, so the buffer is a permutation of 0..n-1 |
| LevelUpOverlay.ShufflePrefix | Assets/Scripts/LevelUpOverlayController.cs:267-271 | the shuffle keeps the buffer's length |
| LevelUpOverlay.ShufflePrefixPermutes | Assets/Scripts/LevelUpOverlayController.cs:267-271 | swapping keeps a permutation of 0..n-1 a permutation |
| LevelUpOverlay.SwapKeepsPermutation | Assets/Scripts/LevelUpOverlayController.cs:270 | one swap keeps a permutation of 0..n-1 one |
| LevelUpOverlay.ShuffledIndices | Assets/Scripts/LevelUpOverlayController.cs:263-271 | the in-place array loop computes the three-swap shuffle of 0..n-1, and the result is a permutation of 0..n-1 |
| LevelUpOverlay.OfferOrder | Assets/Scripts/LevelUpOverlayController.cs:263-271 | the order in which the eight types are dealt is a permutation of 0..7 |
| LevelUpOverlay.MakeOffer | Assets/Scripts/LevelUpOverlayController.cs:275-285 | an offer carries the table's value for its type and rarity and its type's percentage flag |
| LevelUpOverlay.LevelUpOverlayController.constructor | Assets/Scripts/LevelUpOverlayController.cs:75 | three offer slots holding C#'s default offer (first type and rarity, value 0, flat); closed, not paused, time scale 1 |
| LevelUpOverlay.LevelUpOverlayController.GenerateOffers | Assets/Scripts/LevelUpOverlayController.cs:259-289 | card i offers type `AllTypes[order[i]]` of the shuffle, at the rarity rolled for it, and the three types are pairwise different |
| LevelUpOverlay.LevelUpOverlayController.FillOffers | Assets/Scripts/LevelUpOverlayController.cs:273-285 | each card is the offer for its shuffled type and rolled rarity, and no two cards share a type |
| LevelUpOverlay.LevelUpOverlayController.Open | Assets/Scripts/LevelUpOverlayController.cs:223-234 | without the overlay nothing changes; otherwise the overlay opens with three well-formed offers of distinct types: card i is the i-th type of the shuffled order at the rarity rolled for it, as `GenerateOffers` deals them, and the time scale is untouched until the animation ends |
| LevelUpOverlay.LevelUpOverlayController.FinishOpenAnimationAsWritten | Assets/Scripts/LevelUpOverlayController.cs:236-244 | as written: with pausing enabled, the game pauses and remembers the current scale, and if it was already paused it remembers 0 |
| LevelUpOverlay.LevelUpOverlayController.FinishOpenAnimation | Assets/Scripts/LevelUpOverlayController.cs:236-244 | corrected: pauses, but a second opening keeps the scale remembered by the first |
| LevelUpOverlay.LevelUpOverlayController.Resume | Assets/Scripts/LevelUpOverlayController.cs:479-486 | when the overlay had paused the game, the remembered scale is restored and the pause flag is cleared; otherwise nothing changes |
| LevelUpOverlay.LevelUpOverlayController.Close | Assets/Scripts/LevelUpOverlayController.cs:248-255 | a closed overlay stays as it is; an open one closes and resumes at once |
| LevelUpOverlay.LevelUpOverlayController.FinishCloseAnimation | Assets/Scripts/LevelUpOverlayController.cs:472-476 | the end of the fade-out resumes once more; the open flag and the remembered scale are kept |
| LevelUpOverlay.LevelUpOverlayController.OnDisable | Assets/Scripts/LevelUpOverlayController.cs:191-209 | disabling an open overlay resumes the game; otherwise nothing changes. The open flag and the remembered scale are kept in both cases |
| LevelUpOverlay.LevelUpOverlayController.ApplyUpgrade | Assets/Scripts/LevelUpOverlayController.cs:366-395 | the offer's value is added to exactly the stat its type feeds, and every other stat is unchanged |
| LevelUpOverlay.LevelUpOverlayController.OnPickUpgrade | Assets/Scripts/LevelUpOverlayController.cs:354-364 | a bad index does nothing. Otherwise only the picked offer's stat grows, by the offer's value, and the overlay closes, resuming a game it paused and leaving the pause state and time scale alone otherwise; the remembered scale never changes |
| LevelUpOverlay.TwoLevelUpsAsWritten | Assets/Scripts/LevelUpOverlayController.cs:236-244 | two level-ups in one burst followed by a pick leave the time scale at 0 |
| LevelUpOverlay.TwoLevelUpsCorrected | Assets/Scripts/LevelUpOverlayController.cs:236-244 | with the corrected opening the same sequence resumes at scale 1 |
| HealthSystem.RescaledHp | Assets/Scripts/Health.cs:128-133 | the kept hit points lie in [0, newMax] and keep their fraction: within one half of hp · newMax / oldMax. Full (or overfull) health stays full, an empty bar stays empty, and a non-positive old maximum gives full health |
| HealthSystem.RescaleKeepsFraction | Assets/Scripts/Health.cs:128-133 | the fraction carried to the new maximum is hp · newMax / oldMax, and for a bar between empty and full it rounds into [0, newMax] |
| HealthSystem.RescaleRounding | Assets/Scripts/Health.cs:128-133 | the rescaled fraction rounds to the new maximum when full and to at most 0 when empty |
| HealthSystem.DodgeExtremes | Assets/Scripts/Health.cs:57-58 | a zero dodge chance never dodges, and a certain one dodges every draw below 1 |
| HealthSystem.BankStep | Assets/Scripts/Health.cs:104-117 | hit points rise but never past the maximum, and the bank keeps a fraction in [0, 1). Healed plus banked never exceeds what was banked and earned, and below the cap is exactly equal to it. Under one whole hit point nothing is healed |
| HealthSystem.Health.HealthRatio | Assets/Scripts/Health.cs:141 | the announced fraction times the maximum is the hit points (0 without a positive maximum), and it lies in [0, 1] for valid hit points |
| HealthSystem.Health.RegenPerSec | Assets/Scripts/Health.cs:93-94 | regeneration is non-negative, at least the base, and the base plus the upgrade's non-negative share |
| HealthSystem.Health.Earned | Assets/Scripts/Health.cs:104 | positive regeneration over a positive frame earns something |
| HealthSystem.Health.Awake | Assets/Scripts/Health.cs:27-39 | the maximum is scaled for the current bonus (when there are upgrades), health starts full, `dead` means hp ≤ 0, and the log holds only `HealthChanged` announcements (one more with upgrades, for the rescale), the last with the full fraction |
| HealthSystem.Health.Notify | Assets/Scripts/Health.cs:139-142 | appends `HealthChanged` with the current fraction |
| HealthSystem.Health.FollowBonus | Assets/Scripts/Health.cs:122-133 | without upgrades, or unforced with the bonus approximately unchanged, maximum and hp stay; otherwise the maximum is at least 1 and hp lies in [0, maximum] |
| HealthSystem.Health.RegenOutcome | Assets/Scripts/Health.cs:80-117 | one frame of regeneration never lowers hp, never lifts it past the maximum, keeps the bank in [0, 1), and heals nothing when dead or not yet regenerating |
| HealthSystem.Health.ApplyHealthBonusIfNeeded | Assets/Scripts/Health.cs:120-137 | nothing changes without upgrades or for an approximately unchanged bonus unless forced. Otherwise the maximum is rescaled from the base, hp keeps its fraction (`RescaledHp`), the bonus is remembered and the change announced; the new maximum and hp are `FollowBonus` of the old state. Validity is kept |
| HealthSystem.Health.TakeDamage | Assets/Scripts/Health.cs:49-76 | a non-positive hit, a dead ship or a dodge changes nothing. Otherwise hp drops by the amount but not below 0, the hit is timed, `Damaged` and `HealthChanged` are announced, and reaching 0 kills with a single `Died` |
| HealthSystem.Health.Hit | Assets/Scripts/Health.cs:65-75 | a landed hit loses min(amount, hp), is timed and announced, and kills exactly at 0 |
| HealthSystem.Health.TryRegen | Assets/Scripts/Health.cs:78-118 | a dead ship does not heal; at full health the bank empties; before the delay, or with no regeneration or frame time, nothing happens; otherwise hp and bank follow `BankStep`; in every case they are `RegenOutcome` of the old state, and a `HealthChanged` is logged exactly when hp changed. hp never falls and never passes the maximum |
| HealthSystem.Health.Bank | Assets/Scripts/Health.cs:104-117 | hp and bank become `BankStep` of the old ones, and a change of hp is announced |
| HealthSystem.Health.Update | Assets/Scripts/Health.cs:41-47 | one frame keeps validity, never revives or kills, and keeps hp within the maximum; the new maximum is that of `FollowBonus`, and hp and bank are `RegenOutcome` applied to the followed maximum and hp. A followed bonus is remembered, and the log gains the rescale's announcement (when there is one) followed by regeneration's (when hp rose) |
| Weapon.FireInterval | Assets/Scripts/ShipWeapon.cs:63-75 | never below 0.05 s; the base interval without attack speed; otherwise max(0.05, base / multiplier), so with a speed above -100 % the interval times the multiplier is exactly the base unless the floor applies, and the floor applies only when the base is at most 0.05 · multiplier |
| Weapon.FireIntervalMonotone | Assets/Scripts/ShipWeapon.cs:63-75 | more attack speed never lengthens the interval |
| Weapon.ClosestIsUnique | Assets/Scripts/ShipWeapon.cs:90-131 | at most one hit is the closest one, first among ties |
| Weapon.ShipWeapon.Awake | Assets/Scripts/ShipWeapon.cs:31-40 | the inspector interval and damage become the bases, and the buffer has max(8, maxTargets) slots |
| Weapon.ShipWeapon.OnValidate | Assets/Scripts/ShipWeapon.cs:42-48 | at least one target, and the buffer is reallocated exactly when its size is not max(8, maxTargets) |
| Weapon.ShipWeapon.GetDamage | Assets/Scripts/ShipWeapon.cs:77-88 | at least 1; the base without upgrades; the base scaled by the damage bonus with them |
| Weapon.ShipWeapon.TryGetTarget | Assets/Scripts/ShipWeapon.cs:90-131 | without a fire point there is no target; otherwise a target exists exactly when some live hit is closer than `float.MaxValue`, and the chosen one is the closest, first among ties |
| Weapon.ShipWeapon.Update | Assets/Scripts/ShipWeapon.cs:50-61 | during the cooldown nothing happens. Otherwise the next shot is scheduled one interval later (at least 0.05 s), and a shot is fired exactly when fire point and prefab exist, at the closest target with `GetDamage` |
| ContactDamage.EnemyContactDamage.OnTriggerStay | Assets/Scripts/EnemyContactDamageTrigger.cs:11-25 | only the ship, and only after the tick time, is hurt. The next tick is set and the ship takes `damagePerTick` under the full `TakeDamage` contract |
| Registry.EnemyRegistry.OnSpawn | Assets/Scripts/Core/EnemyRegistry.cs:7 | one more enemy alive |
| Registry.EnemyRegistry.OnDeath | Assets/Scripts/Core/EnemyRegistry.cs:8 | one fewer, never below zero |
| Registry.SpawnThenDeath | Assets/Scripts/Core/EnemyRegistry.cs:7-8 | a spawn then a death restores the count |
| Spawning.PaddedBounds | Assets/Scripts/EnemySpawner.cs:69-72 | the rectangle contains both view corners with `offscreenPadding` to spare on every side, and each side lies exactly that far from one of the corners |
| Spawning.RandomPointOnRectPerimeter | Assets/Scripts/EnemySpawner.cs:99-113 | each side and each draw along it gives a point on the rectangle's border, at height 0 |
| Spawning.PerimeterIsOffscreen | Assets/Scripts/EnemySpawner.cs:66-75 | with positive padding, every spawn point lies at least the padding outside the camera's view |
| Spawning.EnemySpawner.Update | Assets/Scripts/EnemySpawner.cs:34-55 | without ship or prefabs, or at the cap, nothing changes. Otherwise the ramp shortens the interval by a step, never below the minimum, and an enemy spawns exactly when the timer reaches the interval, which resets the timer |
| Dummy.DummyTarget.Awake | Assets/Scripts/DummyTarget.cs:26-33 | the dummy starts at full health |
| Dummy.DummyTarget.Update | Assets/Scripts/DummyTarget.cs:35-49 | without a target or out of range nothing happens; in range the timer accumulates and, on reaching the fire rate, resets and shoots (when prefab and fire point exist) |
| Dummy.DummyTarget.TakeDamage | Assets/Scripts/DummyTarget.cs:77-84 | hp drops by the amount, unguarded and unfloored; `Hit` is announced, and `Death` too whenever hp is at or below 0 |
| Dummy.DummyTarget.Die | Assets/Scripts/DummyTarget.cs:86-90 | announces `Death` |
| Dummy.LethalHits | Assets/Scripts/DummyTarget.cs:77-90 | once dead, every further hit announces another death: n hits add n `Hit` and n `Death` events |
| Asteroids.Wrap | Assets/Scripts/ProceduralAsteroidField.cs:147-154 | an empty range leaves v alone, and so does a value already in range; otherwise the result lies in [min, max] and differs from v by whole ranges; a value below the window ends below `max`, one above it ends above `min` |
| Asteroids.RaiseAbove | Assets/Scripts/ProceduralAsteroidField.cs:151 | adds whole ranges until v reaches min, ending below min + range; v at or above min is kept |
| Asteroids.LowerBelow | Assets/Scripts/ProceduralAsteroidField.cs:152 | takes whole ranges off until v is within [min, min + range], ending above min when it started above the window; v already there is kept |
| Asteroids.FarFromAll | Assets/Scripts/ProceduralAsteroidField.cs:68-74 | the point passes exactly when it is at least the minimum spacing from every placed point |
| Asteroids.ProceduralAsteroidField.KeepsSpacing | Assets/Scripts/ProceduralAsteroidField.cs:66-87 | a point that passes the spacing test keeps the offsets pairwise spaced once added |
| Asteroids.AcceptedDraws | Assets/Scripts/ProceduralAsteroidField.cs:60-76 | the greedy filter over the draws: never more points than draws or than the cap, and the kept points pairwise at least the spacing apart |
| Asteroids.AcceptedDrawsMaximal | Assets/Scripts/ProceduralAsteroidField.cs:60-76 | below the cap nothing was rejected without cause: every draw made was kept or lies too close to a kept point |
| Asteroids.ProceduralAsteroidField.Spawn | Assets/Scripts/ProceduralAsteroidField.cs:47-105 | without textures the field is empty. It never places more than `count` asteroids in at most `count`·80 tries, and stops short only after all of them. Offsets are pairwise at least `minSpacing` apart on the XZ plane, drawn in the field behind `zDepth` at the drawn or the field's height; their XZ points are exactly `AcceptedDraws` of the tries made, in order, and each clone starts where `Instantiate` puts it |
| Asteroids.ProceduralAsteroidField.LateUpdate | Assets/Scripts/ProceduralAsteroidField.cs:107-145 | without a camera nothing changes, the last camera position included. Otherwise each asteroid sits at the parallax anchor plus its offset, and heights are kept. Without wrapping the offsets are unchanged; with it each offset is wrapped as `Wrap` does: kept when the cell is empty or it already lies in the cell, otherwise moved by whole cells into the cell, never onto the far edge from the near side |

## Left out

- Engine effects are not modelled: `Instantiate`, `Destroy`, UI Toolkit rendering (`RenderOffer`, `SetAnimState`), easing, materials, rigidbody velocities and `transform` rotations. Only the state they leave behind that the rules read is kept.
- Single-precision float rounding, NaN and infinities are not modelled: floats are `real`. The `NaN` that `Health` starts its last bonus at is `None`.
- The game's `int` is unbounded in the model; 32-bit overflow is not modelled.
- The float `Random.Range` draws are modelled through `Between`, which allows either order of the bounds; their distribution is not modelled, and the weights of the rarity roll are counted over the 100 draws instead.
- Stats.PlayerUpgrades: the six `…Multiplier` properties carry no contract of their own; each is `PercentMultiplier` of its stat, and the contract is stated there.
- Weapon.FireInterval: requires an attack speed other than -100 %, where the source divides by zero.
- XPDrop.DropXPOnDeath.HandleDied: requires a draw of at least one orb. A draw of 0 makes the source divide by zero; a negative draw, possible only with a negative `minOrbs`, divides without error and spawns nothing, and the model does not cover it. It also requires a draw within [minOrbs, maxOrbs]: the engine's draw for reversed bounds (`minOrbs > maxOrbs`) is not modelled. The orbs' scatter offsets are left out.
- Asteroids.ProceduralAsteroidField.Spawn: where `Instantiate` puts a clone depends on the prefab's own transform under the field, which is not modelled; it is the parameter `cloneAt`. `Start` runs `LateUpdate` right after, which overwrites every position.
- Progression.PlayerXP.Awake: requires a tuning whose curve costs at least one XP at every level from the starting level on (`PaysFrom`); `TunedCurvePays` shows the default shape (base ≥ 1, non-negative growth) qualifies. For a curve that reaches zero or less, the loop at PlayerXP.cs:37 need not end (`ZeroCurveNeverStops`), and such tunings are not modelled.
- `ShipWeapon.Fire` is modelled only as the returned `Shot` (target and damage); the direction, rotation and projectile speed are left out.
- Weapon.ShipWeapon.Update: when the fire point is missing and no target is found, the source throws a `NullReferenceException` at ShipWeapon.cs:60 (it reads `firePoint.position`); the model treats that frame as firing nothing, after the next shot has been scheduled as in the source.
- `TryGetTarget` is modelled on the positions the physics query reports: its aim point, the rigidbody lookup and the layer mask are left out.
- `EnemySpawner.SpawnOne` is modelled by the perimeter point (`PaddedBounds`, `RandomPointOnRectPerimeter`). Its camera check, the push-out to `minSpawnDistance`, the viewport ray casts and the prefab choice are left out.
- `DummyTarget.AimAtTarget` and the projectile of `Shoot` are left out beyond the damage it carries.
- `ProceduralAsteroidField.Spawn` draws for scale, rotation, texture and alpha are left out; `lastCamPos` is kept but never read by the game.
- `XPOrb.Update` (the magnet pull toward the ship) and the components' `OnEnable`/`OnDisable` event wiring are left out: they move objects or subscribe handlers without changing the rules. The overlay's debug keys are left out too.
- The overlay's animation scheduling is modelled by the two moments that change state: the end of opening (`FinishOpenAnimation…`) and the end of closing (`FinishCloseAnimation`).

## Findings

| source | as written | input that shows it | evidently intended | confidence | as-written member | corrected member |
|---|---|---|---|---|---|---|
| Assets/Scripts/LevelUpOverlayController.cs:236-244 | every finished opening animation stores the current `Time.timeScale` as the scale to resume to, even when the overlay has already paused the game; `Animate` (488-508) never cancels an earlier item | one `AddXP` burst that gains two levels raises `LeveledUp` twice in the same frame, so `Open` runs twice and both opening callbacks fire; the second stores 0, and picking an upgrade restores 0 | the first pause's scale is kept, and the game resumes at scale 1 | not executed | LevelUpOverlay.TwoLevelUpsAsWritten | LevelUpOverlay.TwoLevelUpsCorrected |
| Assets/Scripts/LevelUpOverlayController.cs:342-352 | `TitleFor` has no case for `HealthRegen`, which falls through to "Upgrade" | an offer of type `HealthRegen` | a card title of its own, like every other type | not executed | LevelUpOverlay.HealthRegenTitleIsFallback | LevelUpOverlay.TitlesDistinct |

Two other oddities are modelled as written, but they are not findings:

- `UpgradeSystem` calls Damage the flat upgrade, while the overlay shows Damage as a percentage and regeneration as flat (`PercentFlagsDisagree`).
- `DummyTarget` announces a death on every hit at or below zero (`LethalHits`).

=== FILE: asteroid_field.dfy ===
/**
 * The decorative asteroid field (`ProceduralAsteroidField`): asteroids placed
 * by rejection sampling with a minimum spacing, then kept in parallax with
 * the camera and wrapped around it.
 */
module Asteroids {
  import opened Wrappers
  import opened Mathf

  /** Squared distance between two points of the XZ plane. */
  function SqrDistance2(ax: real, az: real, bx: real, bz: real): real {
    (ax - bx) * (ax - bx) + (az - bz) * (az - bz)
  }

  /** Every two offsets are at least `minSpacing` apart on the XZ plane. */
  ghost predicate Spaced(offsets: seq<Vec3>, minSpacing: real) {
    forall i, j :: 0 <= i < j < |offsets| ==>
      SqrDistance2(offsets[i].x, offsets[i].z, offsets[j].x, offsets[j].z) >= minSpacing * minSpacing
  }

  /**
   * `Wrap`: shift `v` by whole ranges until it lies in `[min, max]`; an
   * empty or inverted range leaves it alone.
   */
  method Wrap(v: real, min: real, max: real) returns (r: real)
    ensures max - min <= 0.0 ==> r == v
    ensures min <= v <= max ==> r == v
    ensures max - min > 0.0 ==> min <= r <= max && IsIntegral((r - v) / (max - min))
    // a value below the window never lands on `max`, one above it never on `min`
    ensures max - min > 0.0 && v < min ==> r < max
    ensures max - min > 0.0 && v > max ==> r > min
  {
    var range := max - min;
    if range <= 0.0 {
      return v;
    }
    ghost var up, down;
    r, up := RaiseAbove(v, min, range);
    r, down := LowerBelow(r, min, range);
    WholeRanges(r - v, up as int - down as int, range);
  }

  /** A shift by `n` whole ranges is a whole number of ranges. */
  lemma WholeRanges(d: real, n: int, range: real)
    requires range > 0.0 && d == n as real * range
    ensures IsIntegral(d / range)
  {
    assert range / range == 1.0;
    assert d / range == n as real * (range / range);
  }

  /** The first loop of `Wrap`: add whole ranges while below `min`; `k` counts them. */
  method RaiseAbove(v: real, min: real, range: real) returns (r: real, ghost k: nat)
    requires range > 0.0
    ensures r == v + k as real * range
    ensures v < min ==> min <= r < min + range
    ensures v >= min ==> r == v && k == 0
  {
    r, k := v, 0;
    while r < min
      invariant r == v + k as real * range
      invariant v < min ==> r < min + range
      invariant v >= min ==> r == v && k == 0
      decreases ((min - r) / range).Floor + 1
    {
      ghost var q := (min - r) / range;
      r := r + range;
      k := k + 1;
      Shift(min - (r - range), range, q);
    }
  }

  /** The second loop of `Wrap`: take whole ranges off while above `min + range`; `k` counts them. */
  method LowerBelow(v: real, min: real, range: real) returns (r: real, ghost k: nat)
    requires range > 0.0 && v >= min
    ensures r == v - k as real * range
    ensures min <= r <= min + range
    ensures v <= min + range ==> r == v && k == 0
    ensures v > min + range ==> r > min
  {
    r, k := v, 0;
    while r > min + range
      invariant r == v - k as real * range
      invariant r >= min
      invariant v <= min + range ==> r == v && k == 0
      invariant v > min + range ==> r > min
      decreases ((r - (min + range)) / range).Floor + 1
    {
      ghost var q := (r - (min + range)) / range;
      r := r - range;
      k := k + 1;
      Shift(r + range - (min + range), range, q);
    }
  }

  /** Taking one whole range off a positive distance lowers its count of ranges by exactly one. */
  lemma Shift(a: real, range: real, q: real)
    requires range > 0.0 && a > 0.0 && q == a / range
    ensures q > 0.0 && q.Floor >= 0
    ensures (a - range) / range == q - 1.0
    ensures (q - 1.0).Floor == q.Floor - 1
  {
    assert range / range == 1.0;
    assert (a - range) / range == a / range - range / range;
    var f := q.Floor;
    assert f as real <= q < f as real + 1.0;
    assert (f - 1) as real <= q - 1.0 < (f - 1) as real + 1.0;
  }

  /** Appending a point far enough from every spaced offset keeps them spaced. */
  lemma SpacedAppend(offsets: seq<Vec3>, p: Vec3, minSpacing: real)
    requires Spaced(offsets, minSpacing)
    requires forall j :: 0 <= j < |offsets| ==>
      SqrDistance2(offsets[j].x, offsets[j].z, p.x, p.z) >= minSpacing * minSpacing
    ensures Spaced(offsets + [p], minSpacing)
  {
  }

  /** Squared distance does not change when both points move by `d` along Z. */
  lemma SqrDistanceShiftZ(ax: real, az: real, bx: real, bz: real, d: real)
    ensures SqrDistance2(ax, az - d, bx, bz) == SqrDistance2(ax, az, bx, bz + d)
  {
    assert (az - d) - bz == az - (bz + d);
  }

  /**
   * `v` is `v0` wrapped into the centred cell of width `size`: kept when the
   * cell is empty or `v0` already lies in it, otherwise moved by whole cells
   * into it, landing on the cell's far edge never from the near side.
   */
  ghost predicate WrappedInto(v: real, v0: real, size: real) {
    (size <= 0.0 ==> v == v0)
    && (Between(v0, -size * 0.5, size * 0.5) ==> v == v0)
    && (size > 0.0 ==> Between(v, -size * 0.5, size * 0.5) && IsIntegral((v - v0) / size))
    && (size > 0.0 && v0 < -size * 0.5 ==> v < size * 0.5)
    && (size > 0.0 && v0 > size * 0.5 ==> v > -size * 0.5)
  }

  /** `(x, z)` is at least `sqrt(min2)` from every placed point. */
  predicate FarFrom(placed: seq<(real, real)>, x: real, z: real, min2: real) {
    forall j :: 0 <= j < |placed| ==> SqrDistance2(placed[j].0, placed[j].1, x, z) >= min2
  }

  /**
   * The points the rejection sampling of `Spawn` accepts among the first `t`
   * draws: a draw is kept when fewer than `cap` are kept so far and it is
   * far from all of them.
   */
  function AcceptedDraws(xs: seq<real>, zs: seq<real>, min2: real, cap: int, t: nat): (placed: seq<(real, real)>)
    requires t <= |xs| == |zs|
    ensures |placed| <= t && |placed| <= MaxInt(cap, 0)
    ensures forall i, j :: 0 <= i < j < |placed| ==>
      SqrDistance2(placed[i].0, placed[i].1, placed[j].0, placed[j].1) >= min2
  {
    if t == 0 then []
    else
      var prev := AcceptedDraws(xs, zs, min2, cap, t - 1);
      if |prev| < cap && FarFrom(prev, xs[t - 1], zs[t - 1], min2) then prev + [(xs[t - 1], zs[t - 1])]
      else prev
  }

  /**
   * Below the cap the sampling is maximal: every draw made so far was either
   * kept or is too close to a kept point.
   */
  lemma {:induction false} AcceptedDrawsMaximal(xs: seq<real>, zs: seq<real>, min2: real, cap: int, t: nat)
    requires t <= |xs| == |zs|
    ensures var placed := AcceptedDraws(xs, zs, min2, cap, t);
      |placed| < cap ==> forall k :: 0 <= k < t ==>
        (xs[k], zs[k]) in placed || !FarFrom(placed, xs[k], zs[k], min2)
  {
    if t > 0 {
      var prev := AcceptedDraws(xs, zs, min2, cap, t - 1);
      var placed := AcceptedDraws(xs, zs, min2, cap, t);
      if |placed| < cap {
        AcceptedDrawsMaximal(xs, zs, min2, cap, t - 1);
        assert placed[..|prev|] == prev;
        forall k | 0 <= k < t
          ensures (xs[k], zs[k]) in placed || !FarFrom(placed, xs[k], zs[k], min2)
        {
          if k < t - 1 && (xs[k], zs[k]) in prev {
            var m :| 0 <= m < |prev| && prev[m] == (xs[k], zs[k]);
            assert placed[m] == prev[m];
          } else {
            FarFromPrefix(prev, placed, xs[k], zs[k], min2);
          }
        }
      }
    }
  }

  /** Being far from every point of a list implies being far from every point of its prefix. */
  lemma FarFromPrefix(prev: seq<(real, real)>, placed: seq<(real, real)>, x: real, z: real, min2: real)
    requires |prev| <= |placed| && placed[..|prev|] == prev
    ensures FarFrom(placed, x, z, min2) ==> FarFrom(prev, x, z, min2)
  {
    if FarFrom(placed, x, z, min2) {
      forall j | 0 <= j < |prev|
        ensures SqrDistance2(prev[j].0, prev[j].1, x, z) >= min2
      {
        assert prev[j] == placed[j];
      }
    }
  }

  /** The spacing test of `Spawn`: is `(x, z)` at least `sqrt(min2)` from every placed point? */
  method FarFromAll(placed: seq<(real, real)>, x: real, z: real, min2: real) returns (ok: bool)
    ensures ok <==> FarFrom(placed, x, z, min2)
  {
    for j := 0 to |placed|
      invariant forall i :: 0 <= i < j ==> SqrDistance2(placed[i].0, placed[i].1, x, z) >= min2
    {
      if SqrDistance2(placed[j].0, placed[j].1, x, z) < min2 {
        return false;
      }
    }
    return true;
  }

  class ProceduralAsteroidField {
    const count: int
    const fieldSizeX: real
    const fieldSizeZ: real
    const zDepth: real
    const minSpacing: real
    const randomY: bool
    const parallax: real
    const infiniteWrap: bool
    /** The field's own position; its height is the asteroids' height when heights are not random. */
    const origin: Vec3

    /** World positions of the asteroids. */
    var instances: seq<Vec3>
    /** Each asteroid's offset from the camera anchor. */
    var baseOffsets: seq<Vec3>
    var lastCamPos: Vec3

    constructor (count: int, fieldSizeX: real, fieldSizeZ: real, zDepth: real, minSpacing: real,
                 randomY: bool, parallax: real, infiniteWrap: bool, origin: Vec3)
      ensures this.count == count && this.fieldSizeX == fieldSizeX && this.fieldSizeZ == fieldSizeZ
      ensures this.zDepth == zDepth && this.minSpacing == minSpacing && this.randomY == randomY
      ensures this.parallax == parallax && this.infiniteWrap == infiniteWrap && this.origin == origin
      ensures instances == [] && baseOffsets == []
    {
      this.count, this.fieldSizeX, this.fieldSizeZ, this.zDepth := count, fieldSizeX, fieldSizeZ, zDepth;
      this.minSpacing, this.randomY, this.parallax, this.infiniteWrap := minSpacing, randomY, parallax, infiniteWrap;
      this.origin := origin;
      instances, baseOffsets := [], [];
      lastCamPos := Vec3(0.0, 0.0, 0.0);
    }

    /** Try `k` is within the field: `xs[k]` and `zs[k]` are the draws of `Random.Range` across it. */
    predicate DrawsInField(xs: seq<real>, zs: seq<real>)
      requires |xs| == |zs|
    {
      forall k :: 0 <= k < |xs| ==>
        Between(xs[k], -fieldSizeX * 0.5, fieldSizeX * 0.5) && Between(zs[k], -fieldSizeZ * 0.5, fieldSizeZ * 0.5)
    }

    /** The spacing test's points are the offsets' XZ coordinates, without the depth. */
    ghost predicate PlacedAt(placed: seq<(real, real)>, offsets: seq<Vec3>) {
      |placed| == |offsets|
      && forall i :: 0 <= i < |placed| ==> placed[i] == (offsets[i].x, offsets[i].z - zDepth)
    }

    /** Each offset was drawn inside the field, behind `zDepth`, at its drawn (or the field's) height. */
    ghost predicate PlacedInField(offsets: seq<Vec3>, ys: seq<real>) {
      |offsets| <= |ys|
      && forall i :: 0 <= i < |offsets| ==>
        Between(offsets[i].x, -fieldSizeX * 0.5, fieldSizeX * 0.5)
        && Between(offsets[i].z - zDepth, -fieldSizeZ * 0.5, fieldSizeZ * 0.5)
        && offsets[i].y == (if randomY then ys[i] else origin.y)
    }

    /** A point drawn in the field, given the next height, extends the placements. */
    lemma PlacedInFieldAppend(offsets: seq<Vec3>, ys: seq<real>, x: real, z: real, y: real)
      requires PlacedInField(offsets, ys) && |offsets| < |ys|
      requires Between(x, -fieldSizeX * 0.5, fieldSizeX * 0.5) && Between(z, -fieldSizeZ * 0.5, fieldSizeZ * 0.5)
      requires y == (if randomY then ys[|offsets|] else origin.y)
      ensures PlacedInField(offsets + [Vec3(x, y, zDepth + z)], ys)
    {
      assert (zDepth + z) - zDepth == z;
    }

    /** A point that passes the spacing test keeps the offsets spaced once added. */
    lemma KeepsSpacing(placed: seq<(real, real)>, offsets: seq<Vec3>, x: real, z: real, y: real)
      requires PlacedAt(placed, offsets) && Spaced(offsets, minSpacing)
      requires forall j :: 0 <= j < |placed| ==>
        SqrDistance2(placed[j].0, placed[j].1, x, z) >= minSpacing * minSpacing
      ensures Spaced(offsets + [Vec3(x, y, zDepth + z)], minSpacing)
      ensures PlacedAt(placed + [(x, z)], offsets + [Vec3(x, y, zDepth + z)])
    {
      forall j | 0 <= j < |offsets|
        ensures SqrDistance2(offsets[j].x, offsets[j].z, x, zDepth + z) >= minSpacing * minSpacing
      {
        SqrDistanceShiftZ(offsets[j].x, offsets[j].z, x, z, zDepth);
      }
      SpacedAppend(offsets, Vec3(x, y, zDepth + z), minSpacing);
    }

    /**
     * `Spawn`: clear the field and place asteroids by rejection sampling.
     * Try `k` draws the point `(xs[k], zs[k])`; the `n`-th accepted asteroid
     * takes the height `ys[n]` when heights are random. `cloneAt` is where
     * `Instantiate` puts a clone under the field. Returns the number of tries
     * made.
     */
    method Spawn(hasTextures: bool, xs: seq<real>, zs: seq<real>, ys: seq<real>, cloneAt: Vec3) returns (tries: int)
      requires |xs| == |zs| && |xs| >= count * 80 && |ys| >= count
      requires DrawsInField(xs, zs)
      modifies this`instances, this`baseOffsets
      ensures |instances| == |baseOffsets|
      ensures !hasTextures ==> instances == [] && baseOffsets == [] && tries == 0
      ensures |instances| <= MaxInt(count, 0) && 0 <= tries <= MaxInt(count * 80, 0)
      ensures hasTextures && |instances| < count ==> tries == count * 80
      ensures Spaced(baseOffsets, minSpacing)
      ensures PlacedInField(baseOffsets, ys)
      // exactly the draws the sampling accepts, in order
      ensures PlacedAt(AcceptedDraws(xs, zs, minSpacing * minSpacing, count, tries), baseOffsets)
      ensures forall i :: 0 <= i < |instances| ==> instances[i] == cloneAt
    {
      instances, baseOffsets := [], [];
      tries := 0;
      if !hasTextures {
        return;
      }
      var placed: seq<(real, real)> := [];
      while |instances| < count && tries < count * 80
        invariant |instances| == |baseOffsets| == |placed| <= tries <= MaxInt(count * 80, 0)
        invariant |instances| <= MaxInt(count, 0)
        invariant PlacedAt(placed, baseOffsets)
        invariant Spaced(baseOffsets, minSpacing)
        invariant PlacedInField(baseOffsets, ys)
        invariant placed == AcceptedDraws(xs, zs, minSpacing * minSpacing, count, tries)
        invariant forall i :: 0 <= i < |instances| ==> instances[i] == cloneAt
        decreases count * 80 - tries
      {
        var x, z := xs[tries], zs[tries];
        tries := tries + 1;
        var ok := FarFromAll(placed, x, z, minSpacing * minSpacing);
        if !ok {
          continue;
        }
        var y := if randomY then ys[|instances|] else origin.y;
        var offset := Vec3(x, y, zDepth + z);
        KeepsSpacing(placed, baseOffsets, x, z, y);
        PlacedInFieldAppend(baseOffsets, ys, x, z, y);
        placed := placed + [(x, z)];
        instances := instances + [cloneAt];
        baseOffsets := baseOffsets + [offset];
      }
    }

    /**
     * `LateUpdate` with the camera at `camPos` (or no camera): place each
     * asteroid at the parallax anchor plus its offset, wrapping the offset
     * around the camera when `infiniteWrap` is set.
     */
    method LateUpdate(camPos: Option<Vec3>)
      requires |instances| == |baseOffsets|
      modifies this
      ensures |instances| == |baseOffsets| == old(|baseOffsets|)
      ensures camPos.None? ==> instances == old(instances) && baseOffsets == old(baseOffsets) && lastCamPos == old(lastCamPos)
      ensures camPos.Some? ==>
        lastCamPos == camPos.value
        && forall i :: 0 <= i < |instances| ==>
          instances[i] == Add(Scale(camPos.value, parallax), baseOffsets[i])
          && baseOffsets[i].y == old(baseOffsets[i].y)
      ensures camPos.Some? && !infiniteWrap ==> baseOffsets == old(baseOffsets)
      ensures camPos.Some? && infiniteWrap ==> forall i :: 0 <= i < |baseOffsets| ==>
        WrappedInto(baseOffsets[i].x, old(baseOffsets[i].x), fieldSizeX)
        && WrappedInto(baseOffsets[i].z, old(baseOffsets[i].z), fieldSizeZ)
    {
      if camPos.None? {
        return;
      }
      var cam := camPos.value;
      var anchor := Scale(cam, parallax);
      for i := 0 to |instances|
        invariant |instances| == |baseOffsets| == old(|baseOffsets|)
        invariant forall k :: 0 <= k < i ==>
          instances[k] == Add(anchor, baseOffsets[k]) && baseOffsets[k].y == old(baseOffsets[k].y)
        invariant forall k :: i <= k < |baseOffsets| ==> baseOffsets[k] == old(baseOffsets[k])
        invariant !infiniteWrap ==> baseOffsets == old(baseOffsets)
        invariant infiniteWrap ==> forall k :: 0 <= k < i ==>
          WrappedInto(baseOffsets[k].x, old(baseOffsets[k].x), fieldSizeX)
          && WrappedInto(baseOffsets[k].z, old(baseOffsets[k].z), fieldSizeZ)
      {
        var pos := Add(anchor, baseOffsets[i]);
        if infiniteWrap {
          var halfX, halfZ := fieldSizeX * 0.5, fieldSizeZ * 0.5;
          var dx := pos.x - cam.x * parallax;
          var dz := pos.z - cam.z * parallax;
          dx := Wrap(dx, -halfX, halfX);
          dz := Wrap(dz, -halfZ, halfZ);
          pos := Vec3(cam.x * parallax + dx, pos.y, cam.z * parallax + dz);
          baseOffsets := baseOffsets[i := Vec3(dx, baseOffsets[i].y, pos.z - cam.z * parallax)];
        }
        instances := instances[i := pos];
      }
      lastCamPos := cam;
    }
  }
}

=== FILE: contact_damage.dfy ===
/**
 * An enemy's contact damage (`EnemyContactDamage`): while the ship stays in
 * its trigger, one hit of `damagePerTick` every `tickSeconds`.
 */
module ContactDamage {
  import HealthSystem

  class EnemyContactDamage {
    const damagePerTick: int
    const tickSeconds: real
    var nextTickTime: real

    constructor (damagePerTick: int, tickSeconds: real)
      ensures this.damagePerTick == damagePerTick && this.tickSeconds == tickSeconds
      ensures nextTickTime == 0.0
    {
      this.damagePerTick, this.tickSeconds := damagePerTick, tickSeconds;
      nextTickTime := 0.0;
    }

    /**
     * A physics frame at time `now` with a collider inside the trigger:
     * `isShip` is its tag test, `health` the `Health` found in its parents,
     * `dodgeRoll` the dodge draw that the hit would use.
     */
    method OnTriggerStay(isShip: bool, health: HealthSystem.Health?, now: real, dodgeRoll: real)
      requires health != null ==> health.Valid()
      requires 0.0 <= dodgeRoll <= 1.0
      modifies this, health
      ensures health != null ==> health.Valid()
      ensures !isShip || now < old(nextTickTime) ==>
        nextTickTime == old(nextTickTime) && (health != null ==> unchanged(health))
      ensures isShip && now >= old(nextTickTime) ==>
        nextTickTime == now + tickSeconds
        && (health != null ==> health.DamageTaken(damagePerTick, now, dodgeRoll))
    {
      if !isShip {
        return;
      }
      if now < nextTickTime {
        return;
      }
      nextTickTime := now + tickSeconds;
      if health != null {
        health.TakeDamage(damagePerTick, now, dodgeRoll);
      }
    }
  }
}

=== FILE: drop_xp.dfy ===
/**
 * XP dropped by a dying enemy (`DropXPOnDeath`): a random number of orbs
 * sharing the enemy's XP as evenly as integer division allows.
 */
module XPDrop {
  import opened Mathf

  function Sum(s: seq<int>): int {
    if s == [] then 0 else Sum(s[..|s| - 1]) + s[|s| - 1]
  }

  /** C#'s `/` on `int`: the quotient truncated toward zero. */
  function Quot(a: int, b: int): (q: int)
    requires b > 0
    ensures a >= 0 ==> q == a / b
    // rounded toward zero: the remainder takes the dividend's sign
    ensures a >= 0 ==> q * b <= a < q * b + b
    ensures a < 0 ==> q * b - b < a <= q * b && q <= 0
  {
    if a >= 0 then a / b else
      var m := (-a) / b;
      assert -a == m * b + (-a) % b;
      assert -m * b == -(m * b);
      -m
  }

  /** Truncation is symmetric: negating the dividend negates the quotient. */
  lemma QuotOdd(a: int, b: int)
    requires b > 0
    ensures Quot(-a, b) == -Quot(a, b)
  {
  }

  /** The first `n` shares of a split: `baseAmt` each, one more for each of the first `remainder`. */
  function Shares(baseAmt: int, remainder: int, n: nat): (s: seq<int>)
    ensures |s| == n
    ensures forall k :: 0 <= k < n ==> s[k] == baseAmt + (if k < remainder then 1 else 0)
  {
    if n == 0 then [] else Shares(baseAmt, remainder, n - 1) + [baseAmt + (if n - 1 < remainder then 1 else 0)]
  }

  /** Each share is `baseAmt` or one more, the larger ones first. */
  lemma SharesEven(baseAmt: int, remainder: int, n: nat)
    ensures forall i, j :: 0 <= i < j < n ==>
      Shares(baseAmt, remainder, n)[j] <= Shares(baseAmt, remainder, n)[i] <= Shares(baseAmt, remainder, n)[j] + 1
    ensures forall i :: 0 <= i < n ==> Shares(baseAmt, remainder, n)[i] >= baseAmt
    ensures remainder <= 0 ==> forall i :: 0 <= i < n ==> Shares(baseAmt, remainder, n)[i] == baseAmt
  {
  }

  /** `n` copies of `b` added up. */
  function Repeat(b: int, n: nat): int {
    if n == 0 then 0 else Repeat(b, n - 1) + b
  }

  lemma {:induction false} RepeatIsProduct(b: int, n: nat)
    ensures Repeat(b, n) == b * n
  {
    if n > 0 {
      RepeatIsProduct(b, n - 1);
      assert b * n == b * (n - 1) + b;
    }
  }

  /** The shares add up to `n` base amounts plus one for each extra share handed out. */
  lemma {:induction false} SharesSum(baseAmt: int, remainder: int, n: nat)
    ensures Sum(Shares(baseAmt, remainder, n)) == Repeat(baseAmt, n) + (if remainder <= 0 then 0 else MinInt(n, remainder))
  {
    if n > 0 {
      SharesSum(baseAmt, remainder, n - 1);
      var s := Shares(baseAmt, remainder, n);
      assert s[..n - 1] == Shares(baseAmt, remainder, n - 1);
    }
  }

  /** What the share and the remainder are, on either side of `orbs <= xpAmount`. */
  lemma SplitFacts(xpAmount: int, orbs: int, baseAmt: int, remainder: int)
    requires orbs >= 1
    requires baseAmt == MaxInt(1, Quot(xpAmount, orbs)) && remainder == xpAmount - baseAmt * orbs
    ensures orbs <= xpAmount ==> baseAmt >= 1 && 0 <= remainder < orbs
    ensures orbs > xpAmount ==> baseAmt == 1 && remainder < 0
  {
    var q, r := xpAmount / orbs, xpAmount % orbs;
    assert xpAmount == q * orbs + r && 0 <= r < orbs;
    if q <= 0 {
      MulMonotone(q, 0, orbs);
    }
    if q >= 1 {
      MulMonotone(1, q, orbs);
    }
    if q <= -1 {
      MulMonotone(q, -1, orbs);
    }
  }

  lemma MulMonotone(a: int, b: int, c: int)
    requires a <= b && c >= 0
    ensures a * c <= b * c
  {
  }

  /** What the shares of a split add up to. */
  lemma SplitSum(xpAmount: int, orbs: int, baseAmt: int, remainder: int)
    requires orbs >= 1
    requires baseAmt == MaxInt(1, Quot(xpAmount, orbs)) && remainder == xpAmount - baseAmt * orbs
    ensures orbs <= xpAmount ==> Sum(Shares(baseAmt, remainder, orbs)) == xpAmount
    ensures orbs > xpAmount ==> Sum(Shares(baseAmt, remainder, orbs)) == orbs
  {
    SplitFacts(xpAmount, orbs, baseAmt, remainder);
    SharesSum(baseAmt, remainder, orbs);
    RepeatIsProduct(baseAmt, orbs);
    var total := Sum(Shares(baseAmt, remainder, orbs));
    if orbs <= xpAmount {
      assert total == baseAmt * orbs + remainder;
    } else {
      assert total == baseAmt * orbs;
    }
  }

  /**
   * How `HandleDied` shares `xpAmount` among `orbs` orbs: the truncated
   * quotient each (at least one), and one more for as many orbs as the
   * remainder covers.
   */
  function Split(xpAmount: int, orbs: int): (s: seq<int>)
    requires orbs >= 1
    ensures |s| == orbs
    ensures forall i :: 0 <= i < |s| ==> s[i] >= 1
    // as even as possible, larger shares first
    ensures forall i, j :: 0 <= i < j < |s| ==> s[j] <= s[i] <= s[j] + 1
    ensures orbs <= xpAmount ==> Sum(s) == xpAmount
    ensures orbs > xpAmount ==> (forall i :: 0 <= i < |s| ==> s[i] == 1) && Sum(s) == orbs
  {
    var baseAmt := MaxInt(1, Quot(xpAmount, orbs));
    var remainder := xpAmount - baseAmt * orbs;
    SplitFacts(xpAmount, orbs, baseAmt, remainder);
    SharesEven(baseAmt, remainder, orbs);
    SplitSum(xpAmount, orbs, baseAmt, remainder);
    Shares(baseAmt, remainder, orbs)
  }

  class DropXPOnDeath {
    const hasPrefab: bool
    const xpAmount: int
    const minOrbs: int
    const maxOrbs: int

    constructor (hasPrefab: bool, xpAmount: int, minOrbs: int, maxOrbs: int)
      ensures this.hasPrefab == hasPrefab && this.xpAmount == xpAmount
      ensures this.minOrbs == minOrbs && this.maxOrbs == maxOrbs
    {
      this.hasPrefab, this.xpAmount, this.minOrbs, this.maxOrbs := hasPrefab, xpAmount, minOrbs, maxOrbs;
    }

    /**
     * `HandleDied`: `orbs` is the draw of `Random.Range(minOrbs, maxOrbs + 1)`
     * (at least one, since it divides). Returns the amounts given to the orbs,
     * in spawn order.
     */
    method HandleDied(orbs: int) returns (amounts: seq<int>)
      requires hasPrefab ==> 1 <= orbs && minOrbs <= orbs <= maxOrbs
      ensures !hasPrefab ==> amounts == []
      ensures hasPrefab ==> |amounts| == orbs && minOrbs <= |amounts| <= maxOrbs
      ensures hasPrefab ==> amounts == Split(xpAmount, orbs)
    {
      amounts := [];
      if !hasPrefab {
        return;
      }
      var baseAmt := MaxInt(1, Quot(xpAmount, orbs));
      var remainder := xpAmount - baseAmt * orbs;
      for i := 0 to orbs
        invariant amounts == Shares(baseAmt, remainder, i)
      {
        var amt := baseAmt + (if i < remainder then 1 else 0);
        amounts := amounts + [amt];
      }
    }
  }
}

=== FILE: dummy_target.dfy ===
/**
 * A stationary practice target (`DummyTarget`): it shoots at the player
 * when in range, on a fire timer, and loses hit points without any floor.
 */
module Dummy {
  import opened Wrappers
  import opened Mathf

  /** What the dummy announces through its `UnityEvent`s. */
  datatype DummyEvent = Hit | Death

  class DummyTarget {
    const maxHp: int
    const fireRate: real
    const attackRange: real
    const damage: int
    const hasProjectilePrefab: bool
    const hasFirePoint: bool

    var hp: int
    var fireTimer: real
    ghost var events: seq<DummyEvent>

    /** `Awake`: start at full health. */
    constructor Awake(maxHp: int, fireRate: real, attackRange: real, damage: int, hasProjectilePrefab: bool, hasFirePoint: bool)
      ensures this.maxHp == maxHp && this.fireRate == fireRate && this.attackRange == attackRange && this.damage == damage
      ensures this.hasProjectilePrefab == hasProjectilePrefab && this.hasFirePoint == hasFirePoint
      ensures hp == maxHp && fireTimer == 0.0 && events == []
    {
      this.maxHp, this.fireRate, this.attackRange, this.damage := maxHp, fireRate, attackRange, damage;
      this.hasProjectilePrefab, this.hasFirePoint := hasProjectilePrefab, hasFirePoint;
      hp, fireTimer := maxHp, 0.0;
      events := [];
    }

    /**
     * One frame of `dt` seconds with the player at `target` (or none) and the
     * dummy at `self`; returns the damage of the projectile shot, if any.
     */
    method Update(target: Option<Vec3>, self: Vec3, dt: real) returns (shot: Option<int>)
      modifies this`fireTimer
      ensures target.None? || SqrDistance(target.value, self) > attackRange * attackRange ==>
        fireTimer == old(fireTimer) && shot == None
      ensures target.Some? && SqrDistance(target.value, self) <= attackRange * attackRange ==>
        (old(fireTimer) + dt >= fireRate ==> fireTimer == 0.0 && shot == (if hasProjectilePrefab && hasFirePoint then Some(damage) else None))
        && (old(fireTimer) + dt < fireRate ==> fireTimer == old(fireTimer) + dt && shot == None)
    {
      if target.None? {
        return None;
      }
      var sqrDist := SqrDistance(target.value, self);
      if sqrDist > attackRange * attackRange {
        return None;
      }
      fireTimer := fireTimer + dt;
      shot := None;
      if fireTimer >= fireRate {
        if hasProjectilePrefab && hasFirePoint {
          shot := Some(damage);
        }
        fireTimer := 0.0;
      }
    }

    /** Lose `amount` (no guard, no floor), announce the hit, and die whenever at or below zero. */
    method TakeDamage(amount: int)
      modifies this`hp, this`events
      ensures hp == old(hp) - amount
      ensures events == old(events) + [Hit] + (if hp <= 0 then [Death] else [])
    {
      hp := hp - amount;
      events := events + [Hit];
      if hp <= 0 {
        Die();
      }
    }

    method Die()
      modifies this`events
      ensures events == old(events) + [Death]
    {
      events := events + [Death];
    }
  }

  /**
   * With no dead flag, every hit at or below zero runs `Die` again: hits that
   * land before the deferred destruction each raise `OnDeath`.
   */
  method LethalHits(d: DummyTarget, amounts: seq<int>)
    requires d.hp <= 0 || (|amounts| > 0 && amounts[0] >= d.hp)
    requires forall i :: 0 <= i < |amounts| ==> amounts[i] >= 0
    modifies d
    ensures d.hp <= 0 || amounts == []
    ensures multiset(d.events)[Death] == multiset(old(d.events))[Death] + |amounts|
    ensures multiset(d.events)[Hit] == multiset(old(d.events))[Hit] + |amounts|
  {
    for i := 0 to |amounts|
      invariant i > 0 ==> d.hp <= 0
      invariant i == 0 ==> d.hp == old(d.hp)
      invariant multiset(d.events)[Death] == multiset(old(d.events))[Death] + i
      invariant multiset(d.events)[Hit] == multiset(old(d.events))[Hit] + i
    {
      d.TakeDamage(amounts[i]);
    }
  }
}

=== FILE: enemy_registry.dfy ===
/** The count of living enemies (`EnemyRegistry`), shared by spawner and enemies. */
module Registry {

  class EnemyRegistry {
    var aliveCount: int

    ghost predicate Valid()
      reads this
    {
      aliveCount >= 0
    }

    constructor ()
      ensures Valid() && aliveCount == 0
    {
      aliveCount := 0;
    }

    method OnSpawn()
      requires Valid()
      modifies this
      ensures Valid()
      ensures aliveCount == old(aliveCount) + 1
    {
      aliveCount := aliveCount + 1;
    }

    /** One enemy fewer; the count never goes below zero. */
    method OnDeath()
      requires Valid()
      modifies this
      ensures Valid()
      ensures old(aliveCount) > 0 ==> aliveCount == old(aliveCount) - 1
      ensures old(aliveCount) == 0 ==> aliveCount == 0
    {
      aliveCount := if aliveCount - 1 >= 0 then aliveCount - 1 else 0;
    }
  }

  /** A spawn followed by a death gives back the count from before. */
  method SpawnThenDeath(r: EnemyRegistry)
    requires r.Valid()
    modifies r
    ensures r.Valid() && r.aliveCount == old(r.aliveCount)
  {
    r.OnSpawn();
    r.OnDeath();
  }
}

=== FILE: enemy_spawner.dfy ===
/**
 * The enemy spawner (`EnemySpawner`): a spawn timer, a difficulty ramp that
 * shortens the interval, a cap on living enemies, and the choice of a point
 * on the perimeter of the padded camera view.
 */
module Spawning {
  import opened Mathf
  import opened Registry

  /** An axis-aligned rectangle on the XZ plane. */
  datatype Rect = Rect(minX: real, maxX: real, minZ: real, maxZ: real)

  /**
   * The camera's view corners `bl` and `tr` projected on the ship's plane,
   * widened by `padding` on every side.
   */
  function PaddedBounds(bl: Vec3, tr: Vec3, padding: real): (r: Rect)
    ensures padding >= 0.0 ==> r.minX <= r.maxX && r.minZ <= r.maxZ
    // both corners sit `padding` inside every edge
    ensures r.minX + padding <= bl.x <= r.maxX - padding && r.minX + padding <= tr.x <= r.maxX - padding
    ensures r.minZ + padding <= bl.z <= r.maxZ - padding && r.minZ + padding <= tr.z <= r.maxZ - padding
    // and no more: each side touches a corner, exactly `padding` away
    ensures r.minX + padding == bl.x || r.minX + padding == tr.x
    ensures r.maxX - padding == bl.x || r.maxX - padding == tr.x
    ensures r.minZ + padding == bl.z || r.minZ + padding == tr.z
    ensures r.maxZ - padding == bl.z || r.maxZ - padding == tr.z
  {
    Rect(MinReal(bl.x, tr.x) - padding, MaxReal(bl.x, tr.x) + padding,
         MinReal(bl.z, tr.z) - padding, MaxReal(bl.z, tr.z) + padding)
  }

  /** `p` lies on the border of `r`. */
  predicate OnPerimeter(r: Rect, p: Vec3) {
    ((p.x == r.minX || p.x == r.maxX) && Between(p.z, r.minZ, r.maxZ))
    || ((p.z == r.minZ || p.z == r.maxZ) && Between(p.x, r.minX, r.maxX))
  }

  /**
   * `RandomPointOnRectPerimeter`: `side` is the draw of `Random.Range(0, 4)`
   * and `t` the draw of `Random.Range` along that side.
   */
  function RandomPointOnRectPerimeter(r: Rect, side: int, t: real): (p: Vec3)
    requires 0 <= side < 4
    requires side < 2 ==> Between(t, r.minX, r.maxX)
    requires side >= 2 ==> Between(t, r.minZ, r.maxZ)
    ensures OnPerimeter(r, p) && p.y == 0.0
  {
    match side
    case 0 => Vec3(t, 0.0, r.maxZ)
    case 1 => Vec3(t, 0.0, r.minZ)
    case 2 => Vec3(r.minX, 0.0, t)
    case _ => Vec3(r.maxX, 0.0, t)
  }

  /** With a positive padding every perimeter point is off the camera's view, by at least the padding. */
  lemma PerimeterIsOffscreen(bl: Vec3, tr: Vec3, padding: real, p: Vec3)
    requires padding > 0.0 && OnPerimeter(PaddedBounds(bl, tr, padding), p)
    ensures p.x <= MinReal(bl.x, tr.x) - padding || p.x >= MaxReal(bl.x, tr.x) + padding
         || p.z <= MinReal(bl.z, tr.z) - padding || p.z >= MaxReal(bl.z, tr.z) + padding
  {
  }

  class EnemySpawner {
    const hasShip: bool
    const prefabCount: int
    const maxAlive: int
    const intervalMin: real
    const rampEverySeconds: real
    const intervalStep: real

    var spawnInterval: real
    var timer: real
    var rampTimer: real

    constructor (hasShip: bool, prefabCount: int, maxAlive: int, spawnInterval: real,
                 intervalMin: real, rampEverySeconds: real, intervalStep: real)
      ensures this.hasShip == hasShip && this.prefabCount == prefabCount && this.maxAlive == maxAlive
      ensures this.intervalMin == intervalMin && this.rampEverySeconds == rampEverySeconds && this.intervalStep == intervalStep
      ensures this.spawnInterval == spawnInterval && timer == 0.0 && rampTimer == 0.0
    {
      this.hasShip, this.prefabCount, this.maxAlive := hasShip, prefabCount, maxAlive;
      this.intervalMin, this.rampEverySeconds, this.intervalStep := intervalMin, rampEverySeconds, intervalStep;
      this.spawnInterval, timer, rampTimer := spawnInterval, 0.0, 0.0;
    }

    /** Nothing to spawn from, or the cap is reached. */
    predicate Frozen(registry: EnemyRegistry)
      reads registry
    {
      !hasShip || prefabCount <= 0 || registry.aliveCount >= maxAlive
    }

    /**
     * One frame of `dt` seconds; returns whether `SpawnOne` is called. The
     * living-enemy count comes from `registry`.
     */
    method Update(dt: real, registry: EnemyRegistry) returns (spawn: bool)
      modifies this
      ensures Frozen(registry) ==>
        !spawn && timer == old(timer) && rampTimer == old(rampTimer) && spawnInterval == old(spawnInterval)
      ensures !Frozen(registry) && old(rampTimer) + dt >= rampEverySeconds ==>
        rampTimer == 0.0 && spawnInterval == MaxReal(intervalMin, old(spawnInterval) - intervalStep)
      ensures !Frozen(registry) && old(rampTimer) + dt < rampEverySeconds ==>
        rampTimer == old(rampTimer) + dt && spawnInterval == old(spawnInterval)
      ensures !Frozen(registry) ==> spawn == (old(timer) + dt >= spawnInterval)
      ensures spawn ==> timer == 0.0
      ensures !Frozen(registry) && !spawn ==> timer == old(timer) + dt
      // the ramp never takes the interval below its floor, nor raises one that is above it
      ensures spawnInterval != old(spawnInterval) ==> spawnInterval >= intervalMin
      ensures intervalStep >= 0.0 && old(spawnInterval) >= intervalMin ==> intervalMin <= spawnInterval <= old(spawnInterval)
    {
      if !hasShip || prefabCount <= 0 {
        return false;
      }
      if registry.aliveCount >= maxAlive {
        return false;
      }
      timer := timer + dt;
      rampTimer := rampTimer + dt;
      if rampTimer >= rampEverySeconds {
        rampTimer := 0.0;
        spawnInterval := MaxReal(intervalMin, spawnInterval - intervalStep);
      }
      spawn := false;
      if timer >= spawnInterval {
        timer := 0.0;
        spawn := true;
      }
    }
  }
}

=== FILE: health.dfy ===
/**
 * Hit points (`Health`): damage floored at zero, a dodge roll, a one-shot
 * death, regeneration through a fractional bank, and the rescaling of the
 * maximum when the health-bonus upgrade changes.
 */
module HealthSystem {
  import opened Wrappers
  import opened Mathf
  import opened Stats

  /** What `Health` announces to its subscribers. */
  datatype HealthEvent = HealthChanged(ratio: real) | Damaged(amount: int) | Died

  /** `Died` is announced at most once in `events`. */
  ghost predicate DiesAtMostOnce(events: seq<HealthEvent>) {
    forall i, j :: 0 <= i < j < |events| && events[i] == Died ==> events[j] != Died
  }

  /**
   * The hit points kept when the maximum goes from `oldMax` to `newMax`: the
   * same fraction of the new maximum, rounded and clamped (full when the old
   * maximum was not positive).
   */
  function RescaledHp(hp: int, oldMax: int, newMax: int): (r: int)
    requires newMax >= 1
    ensures 0 <= r <= newMax
    ensures oldMax <= 0 ==> r == newMax
    ensures oldMax > 0 && hp == oldMax ==> r == newMax
    ensures oldMax > 0 && hp <= 0 ==> r == 0
    ensures oldMax > 0 && hp >= oldMax ==> r == newMax
    // hp keeps its fraction of the maximum, up to rounding
    ensures oldMax > 0 && 0 <= hp <= oldMax ==>
      hp as real * newMax as real / oldMax as real - 0.5 <= r as real <= hp as real * newMax as real / oldMax as real + 0.5
  {
    var pct := if oldMax > 0 then hp as real / oldMax as real else 1.0;
    RescaleRounding(hp, oldMax, newMax, pct);
    RescaleKeepsFraction(hp, oldMax, newMax, pct);
    ClampInt(RoundToInt(pct * newMax as real), 0, newMax)
  }

  /**
   * A non-negative fraction of the old maximum, carried to the new one: the
   * same share of `newMax`, rounding into `[0, newMax]` (up to `newMax` from
   * a full or overfull bar).
   */
  lemma RescaleKeepsFraction(hp: int, oldMax: int, newMax: int, pct: real)
    requires newMax >= 1 && pct == (if oldMax > 0 then hp as real / oldMax as real else 1.0)
    ensures oldMax > 0 ==> pct * newMax as real == hp as real * newMax as real / oldMax as real
    ensures oldMax > 0 && 0 <= hp <= oldMax ==> 0 <= RoundToInt(pct * newMax as real) <= newMax
    ensures oldMax > 0 && hp >= oldMax ==> RoundToInt(pct * newMax as real) >= newMax
  {
    if oldMax > 0 {
      ShareOfNewMax(hp as real, oldMax as real, newMax as real);
      FractionBounds(hp as real, oldMax as real);
      if hp >= 0 {
        RoundedShareBounds(pct, newMax);
      }
    }
  }

  /** A share `a / b` of `c` is `a * c / b`. */
  lemma ShareOfNewMax(a: real, b: real, c: real)
    requires b > 0.0
    ensures (a / b) * c == a * c / b
  {
    var q := a / b;
    assert q * b == a;
    assert (q * c) * b == (q * b) * c;
  }

  /** A share `a / b` of a positive `b` is non-negative for `a >= 0`, at most one for `a <= b`, at least one for `a >= b`. */
  lemma FractionBounds(a: real, b: real)
    requires b > 0.0
    ensures a >= 0.0 ==> a / b >= 0.0
    ensures a <= b ==> a / b <= 1.0
    ensures a >= b ==> a / b >= 1.0
  {
    var q := a / b;
    assert q * b == a;
    if q < 0.0 {
      assert q * b < 0.0;
    }
    if q > 1.0 {
      assert (q - 1.0) * b > 0.0;
    }
    if q < 1.0 {
      assert (1.0 - q) * b > 0.0;
    }
  }

  /** A non-negative share of `newMax` rounds into `[0, newMax]` when at most whole, and to at least `newMax` when at least whole. */
  lemma RoundedShareBounds(pct: real, newMax: int)
    requires newMax >= 1 && pct >= 0.0
    ensures pct <= 1.0 ==> 0 <= RoundToInt(pct * newMax as real) <= newMax
    ensures pct >= 1.0 ==> RoundToInt(pct * newMax as real) >= newMax
  {
    var x := pct * newMax as real;
    MulNonNegative(pct, newMax as real);
    RoundToIntOfInt(0);
    RoundToIntMonotone(0.0, x);
    if pct <= 1.0 {
      MulNonNegative(1.0 - pct, newMax as real);
      RoundToIntOfInt(newMax);
      RoundToIntMonotone(x, newMax as real);
    }
    if pct >= 1.0 {
      MulNonNegative(pct - 1.0, newMax as real);
      RoundToIntAtLeast(x, newMax);
    }
  }

  /** Where the rescaled fraction rounds to: the whole new maximum when full, nothing when empty. */
  lemma RescaleRounding(hp: int, oldMax: int, newMax: int, pct: real)
    requires newMax >= 1 && pct == (if oldMax > 0 then hp as real / oldMax as real else 1.0)
    ensures oldMax <= 0 || hp == oldMax ==> RoundToInt(pct * newMax as real) == newMax
    ensures oldMax > 0 && hp <= 0 ==> RoundToInt(pct * newMax as real) <= 0
  {
    if oldMax <= 0 || hp == oldMax {
      assert pct == 1.0;
      RoundToIntOfInt(newMax);
    } else if hp <= 0 {
      assert pct * oldMax as real == hp as real;
      assert pct <= 0.0;
      MulNonNegative(-pct, newMax as real);
      RoundToIntMonotone(pct * newMax as real, 0.0);
      RoundToIntOfInt(0);
    }
  }

  /** Whether a hit is dodged, given the dodge probability and the draw of `Random.value`. */
  predicate Dodges(dodge01: real, roll: real) {
    dodge01 > 0.0 && roll < dodge01
  }

  /** With no dodge chance nothing is dodged; with a certain one every draw below one is. */
  lemma DodgeExtremes(roll: real)
    requires 0.0 <= roll <= 1.0
    ensures !Dodges(0.0, roll)
    ensures roll < 1.0 ==> Dodges(1.0, roll)
  {
  }

  /**
   * One regeneration step below the maximum: `earned` hit points go into the
   * bank, its whole part moves into `hp` (capped at `maxHp`), and only the
   * fraction stays in the bank.
   */
  function BankStep(hp: int, maxHp: int, bank: real, earned: real): (r: (int, real))
    requires hp < maxHp && 0.0 <= bank < 1.0 && earned > 0.0
    ensures hp <= r.0 <= maxHp
    ensures 0.0 <= r.1 < 1.0
    // hit points are never created: healed plus kept is at most what was banked and earned
    ensures (r.0 - hp) as real + r.1 <= bank + earned
    // below the cap nothing is lost either
    ensures r.0 < maxHp ==> (r.0 - hp) as real + r.1 == bank + earned
    ensures bank + earned < 1.0 ==> r == (hp, bank + earned)
  {
    var total := bank + earned;
    var heal := FloorToInt(total);
    if heal <= 0 then (hp, total) else (MinInt(maxHp, hp + heal), total - heal as real)
  }

  class Health {
    var maxHp: int
    var hp: int
    var dead: bool
    /** Regeneration earned but not yet turned into whole hit points. */
    var regenBank: real
    var lastDamageTime: real
    /** The bonus the maximum was last scaled for; `None` stands for the initial NaN. */
    var lastHealthBonusPct: Option<real>

    const baseMaxHp: int
    const baseRegenHpPerSec: real
    const regenDelayAfterHit: real
    const upgrades: PlayerUpgrades?

    /** Every `OnHealthChanged`, `OnDamaged` and `OnDied` raised so far, in order. */
    ghost var events: seq<HealthEvent>

    ghost predicate Valid()
      reads this
    {
      hp <= maxHp
      && 0.0 <= regenBank < 1.0
      && (!dead ==> hp >= 0)
      && (dead ==> hp <= 0)
      && (upgrades != null ==> maxHp >= 1)
      && DiesAtMostOnce(events)
      && (Died in events ==> dead)
    }

    /** The fraction announced by `Notify`. */
    function HealthRatio(): (r: real)
      reads this
      ensures maxHp <= 0 ==> r == 0.0
      ensures maxHp > 0 ==> r * maxHp as real == hp as real
      ensures maxHp > 0 && 0 <= hp <= maxHp ==> 0.0 <= r <= 1.0
    {
      if maxHp <= 0 then 0.0 else hp as real / maxHp as real
    }

    /** Regeneration per second: the base plus the upgrade's non-negative share, never negative. */
    function RegenPerSec(): (r: real)
      reads upgrades
      ensures r >= 0.0 && r >= baseRegenHpPerSec
      ensures upgrades == null ==> r == MaxReal(0.0, baseRegenHpPerSec)
      ensures upgrades != null ==> r == MaxReal(0.0, baseRegenHpPerSec + upgrades.HealthRegenPerSec())
    {
      var upgradeRegen := if upgrades != null then MaxReal(0.0, upgrades.healthRegenHpPerSec) else 0.0;
      MaxReal(0.0, baseRegenHpPerSec + upgradeRegen)
    }

    /**
     * `Awake` on a component whose inspector values are `maxHp0` and `hp0`:
     * scale the maximum for the current bonus, then start at full health.
     */
    constructor Awake(maxHp0: int, hp0: int, baseRegenHpPerSec: real, regenDelayAfterHit: real, upgrades: PlayerUpgrades?)
      ensures Valid()
      ensures this.upgrades == upgrades && this.baseMaxHp == maxHp0
      ensures this.baseRegenHpPerSec == baseRegenHpPerSec && this.regenDelayAfterHit == regenDelayAfterHit
      ensures upgrades == null ==> maxHp == maxHp0 && lastHealthBonusPct == None
      ensures upgrades != null ==>
        maxHp == ScaledAtLeastOne(maxHp0, upgrades.healthBonusPct) && lastHealthBonusPct == Some(upgrades.healthBonusPct)
      ensures hp == maxHp && dead == (hp <= 0)
      ensures regenBank == 0.0 && lastDamageTime == -999.0
      ensures |events| == (if upgrades == null then 1 else 2) && events[|events| - 1] == HealthChanged(HealthRatio())
      ensures Died !in events
      ensures forall e :: e in events ==> e.HealthChanged?
    {
      this.upgrades, this.baseMaxHp := upgrades, maxHp0;
      this.baseRegenHpPerSec, this.regenDelayAfterHit := baseRegenHpPerSec, regenDelayAfterHit;
      maxHp, hp, dead := maxHp0, hp0, false;
      regenBank, lastDamageTime, lastHealthBonusPct := 0.0, -999.0, None;
      events := [];
      new;
      ApplyHealthBonusIfNeeded(true);
      hp := maxHp;
      dead := hp <= 0;
      Notify();
    }

    /** `OnHealthChanged` with the current fraction. */
    method Notify()
      modifies this`events
      ensures events == old(events) + [HealthChanged(HealthRatio())]
    {
      events := events + [HealthChanged(HealthRatio())];
    }

    /** Whether the bonus is unchanged since the last rescale, so that an unforced rescale is skipped. */
    predicate BonusUnchanged()
      reads this, upgrades
    {
      upgrades != null && lastHealthBonusPct.Some? && Approximately(upgrades.healthBonusPct, lastHealthBonusPct.value)
    }

    /**
     * `maxHp` and `hp` once the bonus has been followed: the maximum scaled
     * from the base and `hp` keeping its fraction, unless there are no
     * upgrades or (unforced) the bonus is unchanged.
     */
    function FollowBonus(force: bool): (r: (int, int))
      reads this, upgrades
      ensures upgrades == null || (!force && BonusUnchanged()) ==> r == (maxHp, hp)
      ensures upgrades != null && !(!force && BonusUnchanged()) ==> r.0 >= 1 && 0 <= r.1 <= r.0
    {
      if upgrades == null || (!force && BonusUnchanged()) then (maxHp, hp)
      else
        var newMax := ScaledAtLeastOne(baseMaxHp, upgrades.healthBonusPct);
        (newMax, RescaledHp(hp, maxHp, newMax))
    }

    /**
     * Rescale the maximum when the bonus changed (or when forced), keeping the
     * fraction of health; without upgrades nothing happens.
     */
    method ApplyHealthBonusIfNeeded(force: bool)
      modifies this
      ensures upgrades == null || (!force && old(lastHealthBonusPct).Some? && Approximately(upgrades.healthBonusPct, old(lastHealthBonusPct).value)) ==>
        maxHp == old(maxHp) && hp == old(hp) && lastHealthBonusPct == old(lastHealthBonusPct) && events == old(events)
      ensures upgrades != null && !(!force && old(lastHealthBonusPct).Some? && Approximately(upgrades.healthBonusPct, old(lastHealthBonusPct).value)) ==>
        maxHp == ScaledAtLeastOne(baseMaxHp, upgrades.healthBonusPct)
        && hp == RescaledHp(old(hp), old(maxHp), maxHp)
        && lastHealthBonusPct == Some(upgrades.healthBonusPct)
        && events == old(events) + [HealthChanged(HealthRatio())]
      ensures (maxHp, hp) == old(FollowBonus(force))
      ensures dead == old(dead) && regenBank == old(regenBank) && lastDamageTime == old(lastDamageTime)
      ensures old(Valid()) ==> Valid()
    {
      if upgrades == null {
        return;
      }
      var bonus := upgrades.healthBonusPct;
      if !force && lastHealthBonusPct.Some? && Approximately(bonus, lastHealthBonusPct.value) {
        return;
      }
      var newMax := ScaledAtLeastOne(baseMaxHp, bonus);
      var newHp := RescaledHp(hp, maxHp, newMax);
      maxHp, hp := newMax, newHp;
      lastHealthBonusPct := Some(bonus);
      Notify();
    }

    /**
     * What a hit of `amount` at time `now` does: nothing when it is not
     * positive, when already dead or when dodged; otherwise `hp` drops by the
     * amount but not below zero, the hit is timed and announced, and reaching
     * zero kills and announces the death.
     */
    twostate predicate DamageTaken(amount: int, now: real, dodgeRoll: real)
      reads this, upgrades
    {
      (amount <= 0 || old(dead) || (upgrades != null && Dodges(upgrades.DodgeChance01(), dodgeRoll)) ==>
        hp == old(hp) && dead == old(dead) && lastDamageTime == old(lastDamageTime) && events == old(events))
      && (!(amount <= 0 || old(dead) || (upgrades != null && Dodges(upgrades.DodgeChance01(), dodgeRoll))) ==>
        hp == MaxInt(old(hp) - amount, 0)
        && old(hp) - hp == MinInt(amount, old(hp))
        && lastDamageTime == now
        && dead == (hp == 0)
        && events == old(events) + [Damaged(amount), HealthChanged(HealthRatio())] + (if hp == 0 then [Died] else []))
      && hp <= old(hp) && (old(dead) ==> dead)
      && maxHp == old(maxHp) && regenBank == old(regenBank) && lastHealthBonusPct == old(lastHealthBonusPct)
    }

    /**
     * A hit of `amount` at time `now`; `dodgeRoll` is the draw of
     * `Random.value`, used only when there are upgrades.
     */
    method TakeDamage(amount: int, now: real, dodgeRoll: real)
      requires Valid()
      requires 0.0 <= dodgeRoll <= 1.0
      modifies this`hp, this`dead, this`lastDamageTime, this`events
      ensures Valid()
      ensures DamageTaken(amount, now, dodgeRoll)
    {
      if amount <= 0 {
        return;
      }
      if dead {
        return;
      }
      if upgrades != null {
        var dodge01 := upgrades.DodgeChance01();
        if dodge01 > 0.0 && dodgeRoll < dodge01 {
          return;
        }
      }
      Hit(amount, now);
    }

    /** A hit that lands: lose `amount` hit points (not below zero), then die on reaching zero. */
    method Hit(amount: int, now: real)
      requires Valid() && !dead && amount > 0
      modifies this`hp, this`dead, this`lastDamageTime, this`events
      ensures Valid()
      ensures hp == MaxInt(old(hp) - amount, 0) && old(hp) - hp == MinInt(amount, old(hp))
      ensures lastDamageTime == now && dead == (hp == 0)
      ensures events == old(events) + [Damaged(amount), HealthChanged(HealthRatio())] + (if hp == 0 then [Died] else [])
    {
      ghost var before := events;
      hp := MaxInt(hp - amount, 0);
      lastDamageTime := now;
      events := events + [Damaged(amount)];
      Notify();
      assert events == before + [Damaged(amount), HealthChanged(HealthRatio())];
      assert Died !in events;
      if hp == 0 {
        dead := true;
        events := events + [Died];
      }
    }

    /**
     * One frame of regeneration at time `now` with frame time `dt`: after the
     * delay since the last hit, earn `RegenPerSec() * dt` into the bank and
     * move its whole part into `hp`, up to the maximum.
     */
    method TryRegen(now: real, dt: real)
      requires Valid()
      modifies this`hp, this`regenBank, this`events
      ensures Valid()
      ensures old(dead) ==> hp == old(hp) && regenBank == old(regenBank) && events == old(events)
      ensures !old(dead) && old(hp) >= maxHp ==> hp == old(hp) && regenBank == 0.0 && events == old(events)
      ensures !old(dead) && old(hp) < maxHp && !Regenerating(now, dt) ==>
        hp == old(hp) && regenBank == old(regenBank) && events == old(events)
      ensures !old(dead) && old(hp) < maxHp && Regenerating(now, dt) ==>
        (hp, regenBank) == BankStep(old(hp), maxHp, old(regenBank), Earned(dt))
        && events == old(events) + (if hp != old(hp) then [HealthChanged(HealthRatio())] else [])
      ensures events == old(events) + (if hp != old(hp) then [HealthChanged(HealthRatio())] else [])
      ensures old(hp) <= hp <= MaxInt(old(hp), maxHp)
      ensures (hp, regenBank) == old(RegenOutcome(hp, maxHp, regenBank, now, dt))
    {
      if dead {
        return;
      }
      if hp >= maxHp {
        regenBank := 0.0;
        return;
      }
      if now - lastDamageTime < regenDelayAfterHit {
        return;
      }
      var regenPerSec := RegenPerSec();
      if regenPerSec <= 0.0 {
        return;
      }
      if dt <= 0.0 {
        return;
      }
      var earned := Earned(dt);
      Bank(earned);
    }

    /** Regeneration earned over a frame of `dt` seconds. */
    function Earned(dt: real): (e: real)
      reads upgrades
      ensures RegenPerSec() > 0.0 && dt > 0.0 ==> e > 0.0
    {
      if RegenPerSec() > 0.0 && dt > 0.0 then
        MulPositive(RegenPerSec(), dt);
        RegenPerSec() * dt
      else
        RegenPerSec() * dt
    }

    /** Earn `earned` hit points into the bank and heal by its whole part. */
    method Bank(earned: real)
      requires Valid() && !dead && hp < maxHp && earned > 0.0
      modifies this`hp, this`regenBank, this`events
      ensures Valid()
      ensures (hp, regenBank) == BankStep(old(hp), maxHp, old(regenBank), earned)
      ensures events == old(events) + (if hp != old(hp) then [HealthChanged(HealthRatio())] else [])
    {
      var before := hp;
      regenBank := regenBank + earned;
      var healInt := FloorToInt(regenBank);
      if healInt <= 0 {
        return;
      }
      hp := MinInt(maxHp, hp + healInt);
      regenBank := regenBank - healInt as real;
      if hp != before {
        Notify();
      }
    }

    /** The delay since the last hit has passed, and there is regeneration and frame time to earn with. */
    predicate Regenerating(now: real, dt: real)
      reads this`lastDamageTime, upgrades
    {
      !(now - lastDamageTime < regenDelayAfterHit) && RegenPerSec() > 0.0 && dt > 0.0
    }

    /**
     * `hp` and the bank after one frame of regeneration from `hp0`, `maxHp0`
     * and `bank0`: unchanged when dead, before the delay or with nothing to
     * earn; an emptied bank at full health; otherwise one `BankStep`.
     */
    function RegenOutcome(hp0: int, maxHp0: int, bank0: real, now: real, dt: real): (r: (int, real))
      requires 0.0 <= bank0 < 1.0
      reads this`dead, this`lastDamageTime, upgrades
      ensures hp0 <= r.0 <= MaxInt(hp0, maxHp0) && 0.0 <= r.1 < 1.0
      ensures dead || !Regenerating(now, dt) ==> r.0 == hp0
    {
      if dead then (hp0, bank0)
      else if hp0 >= maxHp0 then (hp0, 0.0)
      else if !Regenerating(now, dt) then (hp0, bank0)
      else BankStep(hp0, maxHp0, bank0, Earned(dt))
    }

    /** One frame: follow the health bonus, then regenerate. */
    method Update(now: real, dt: real)
      requires Valid()
      modifies this
      ensures Valid()
      ensures dead == old(dead) && lastDamageTime == old(lastDamageTime)
      ensures hp <= maxHp
      ensures Died in events <==> Died in old(events)
      // the bonus is followed first, then one frame of regeneration runs on the result
      ensures var (m, h) := old(FollowBonus(false));
        maxHp == m && (hp, regenBank) == old(RegenOutcome(h, m, regenBank, now, dt))
      // the bonus is remembered when followed; its announcement comes first, then regeneration's
      ensures lastHealthBonusPct ==
        (if old(upgrades == null || BonusUnchanged()) then old(lastHealthBonusPct) else Some(upgrades.healthBonusPct))
      ensures var (m, h) := old(FollowBonus(false));
        events == old(events)
          + (if old(upgrades == null || BonusUnchanged()) then [] else [HealthChanged(h as real / m as real)])
          + (if hp != h then [HealthChanged(HealthRatio())] else [])
    {
      ApplyHealthBonusIfNeeded(false);
      TryRegen(now, dt);
    }
  }
}

=== FILE: level_up_overlay.dfy ===
/**
 * The level-up overlay (`LevelUpOverlayController`): its own eight-type
 * upgrade table, three distinct offers picked by a partial Fisher-Yates
 * shuffle, applying the picked offer to `PlayerUpgrades`, and the
 * pause/resume bookkeeping around opening and closing.
 */
module LevelUpOverlay {
  import opened Stats
  import US = UpgradeSystem

  datatype UpgradeType = MoveSpeed | DodgeChance | AttackSpeed | XpGain | MagnetRadius | Damage | Health | HealthRegen
  datatype Rarity = Normal | Rare | Epic | Legendary

  datatype Offer = Offer(upgradeType: UpgradeType, rarity: Rarity, value: real, isPercent: bool)

  /** `AllTypes`: the enum's values in declaration order. */
  function AllTypes(): (ts: seq<UpgradeType>)
    ensures |ts| == 8
    ensures forall i, j :: 0 <= i < j < |ts| ==> ts[i] != ts[j]
  {
    [MoveSpeed, DodgeChance, AttackSpeed, XpGain, MagnetRadius, Damage, Health, HealthRegen]
  }

  /** Every upgrade type can be offered: `AllTypes` lists each of them. */
  lemma AllTypesComplete(t: UpgradeType)
    ensures t in AllTypes()
  {
    var ts := AllTypes();
    match t
    case MoveSpeed => assert ts[0] == t;
    case DodgeChance => assert ts[1] == t;
    case AttackSpeed => assert ts[2] == t;
    case XpGain => assert ts[3] == t;
    case MagnetRadius => assert ts[4] == t;
    case Damage => assert ts[5] == t;
    case Health => assert ts[6] == t;
    case HealthRegen => assert ts[7] == t;
  }

  function RarityIndex(r: Rarity): (i: nat)
    ensures i < 4
  {
    match r
    case Normal => 0
    case Rare => 1
    case Epic => 2
    case Legendary => 3
  }

  /** `ValuesByRarity[t]`: Normal, Rare, Epic, Legendary. */
  function ValuesByRarity(t: UpgradeType): (row: seq<real>)
    ensures |row| == 4
    ensures forall i, j :: 0 <= i < j < 4 ==> 0.0 < row[i] < row[j]
  {
    match t
    case MoveSpeed => [5.0, 10.0, 15.0, 20.0]
    case DodgeChance => [2.0, 4.0, 6.0, 8.0]
    case AttackSpeed => [10.0, 15.0, 20.0, 25.0]
    case XpGain => [8.0, 16.0, 24.0, 32.0]
    case MagnetRadius => [10.0, 15.0, 20.0, 25.0]
    case Damage => [9.0, 15.0, 21.0, 28.0]
    case Health => [15.0, 20.0, 25.0, 30.0]
    case HealthRegen => [0.5, 1.0, 2.0, 3.0]
  }

  /** Shown as a percentage; here only regeneration (HP per second) is not. */
  function IsPercentUpgrade(t: UpgradeType): bool {
    match t
    case HealthRegen => false
    case _ => true
  }

  lemma HealthRegenIsTheOnlyFlatUpgrade()
    ensures forall t :: !IsPercentUpgrade(t) <==> t == HealthRegen
  {
  }

  /** `RollRarity` given the draw `roll` of `r.Next(0, 100)`. */
  function RollRarity(roll: int): (r: Rarity)
    requires 0 <= roll < 100
    ensures r == Normal <==> roll < 50
    ensures r == Rare <==> 50 <= roll < 80
    ensures r == Epic <==> 80 <= roll < 95
    ensures r == Legendary <==> 95 <= roll
  {
    if roll < 50 then Normal
    else if roll < 80 then Rare
    else if roll < 95 then Epic
    else Legendary
  }

  /**
   * `TitleFor`, as written: regeneration has no case of its own and falls
   * through to the generic "Upgrade".
   */
  function TitleFor(t: UpgradeType): (s: string)
    ensures t != HealthRegen ==> s != "Upgrade"
  {
    match t
    case MoveSpeed => "Movement Speed"
    case DodgeChance => "Dodge Chance"
    case AttackSpeed => "Attack Speed"
    case XpGain => "XP Gain"
    case MagnetRadius => "Magnet Radius"
    case Damage => "Damage"
    case Health => "Health"
    case _ => "Upgrade"
  }

  /** The regeneration card is titled with the fallback text, unlike every other type. */
  lemma HealthRegenTitleIsFallback()
    ensures TitleFor(HealthRegen) == "Upgrade"
    ensures forall t :: t != HealthRegen ==> TitleFor(t) != TitleFor(HealthRegen)
  {
  }

  /** The titles with regeneration given its own case. */
  function TitleForCorrected(t: UpgradeType): (s: string)
    ensures t != HealthRegen ==> s == TitleFor(t)
    ensures s != "Upgrade"
  {
    match t
    case HealthRegen => "Health Regen"
    case _ => TitleFor(t)
  }

  /** With the corrected titles every type has a title of its own. */
  lemma TitlesDistinct()
    ensures forall t, t' :: t != t' ==> TitleForCorrected(t) != TitleForCorrected(t')
  {
    forall t, t' | t != t'
      ensures TitleForCorrected(t) != TitleForCorrected(t')
    {
      assert TitleForCorrected(t)[0] != TitleForCorrected(t')[0]
          || TitleForCorrected(t)[..4] != TitleForCorrected(t')[..4]
          || |TitleForCorrected(t)| != |TitleForCorrected(t')|;
    }
  }

  // ---------------- agreement with UpgradeSystem ----------------

  function FromSystemType(t: US.UpgradeType): UpgradeType {
    match t
    case MoveSpeed => MoveSpeed
    case DodgeChance => DodgeChance
    case AttackSpeed => AttackSpeed
    case XpGain => XpGain
    case MagnetRadius => MagnetRadius
    case Damage => Damage
    case Health => Health
  }

  function FromSystemRarity(r: US.Rarity): Rarity {
    match r
    case Normal => Normal
    case Rare => Rare
    case Epic => Epic
    case Legendary => Legendary
  }

  /** The two tables hold the same values for the seven types they share. */
  lemma TablesAgree(t: US.UpgradeType, r: US.Rarity)
    ensures US.GetValue(t, r) == ValuesByRarity(FromSystemType(t))[RarityIndex(FromSystemRarity(r))]
  {
  }

  /** The two rarity rolls use the same thresholds. */
  lemma RollsAgree(roll: int)
    requires 0 <= roll < 100
    ensures RollRarity(roll) == FromSystemRarity(US.RollRarity(roll))
  {
  }

  /** The two files disagree on which upgrade is flat: damage there, regeneration here. */
  lemma PercentFlagsDisagree()
    ensures !US.IsPercent(US.Damage) && IsPercentUpgrade(FromSystemType(US.Damage))
  {
  }

  // ---------------- partial Fisher-Yates shuffle ----------------

  function Iota(n: nat): (s: seq<int>)
    ensures |s| == n && forall i :: 0 <= i < n ==> s[i] == i
    ensures IsPermutationOfRange(s, n)
  {
    seq(n, i => i)
  }

  function Swap(s: seq<int>, i: nat, j: nat): (r: seq<int>)
    requires i < |s| && j < |s|
  {
    s[i := s[j]][j := s[i]]
  }

  /** Draws fit `rng.Next(i, n)` for the first `k` positions. */
  predicate DrawsFit(swaps: seq<int>, k: nat, n: nat) {
    k <= |swaps| && k <= n && forall i :: 0 <= i < k ==> i <= swaps[i] < n
  }

  /** Position `i` swapped with position `swaps[i]`, for `i` in `0 .. k-1` in turn. */
  function ShufflePrefix(s: seq<int>, swaps: seq<int>, k: nat): (r: seq<int>)
    requires DrawsFit(swaps, k, |s|)
    ensures |r| == |s|
  {
    if k == 0 then s else Swap(ShufflePrefix(s, swaps, k - 1), k - 1, swaps[k - 1])
  }

  /** A shuffled permutation of `0 .. n-1` is still one. */
  lemma {:induction false} ShufflePrefixPermutes(s: seq<int>, swaps: seq<int>, k: nat)
    requires DrawsFit(swaps, k, |s|)
    ensures IsPermutationOfRange(s, |s|) ==> IsPermutationOfRange(ShufflePrefix(s, swaps, k), |s|)
  {
    if k > 0 {
      ShufflePrefixPermutes(s, swaps, k - 1);
      SwapKeepsPermutation(ShufflePrefix(s, swaps, k - 1), k - 1, swaps[k - 1]);
    }
  }

  /** `s` lists each of `0 .. n-1` exactly once. */
  predicate IsPermutationOfRange(s: seq<int>, n: nat) {
    |s| == n
    && (forall i :: 0 <= i < n ==> 0 <= s[i] < n)
    && (forall i, j :: 0 <= i < j < n ==> s[i] != s[j])
  }

  /** One swap only reorders: it keeps a permutation of `0 .. n-1` one. */
  lemma SwapKeepsPermutation(s: seq<int>, i: nat, j: nat)
    requires i < |s| && j < |s|
    ensures IsPermutationOfRange(s, |s|) ==> IsPermutationOfRange(Swap(s, i, j), |s|)
  {
    var r := Swap(s, i, j);
    if IsPermutationOfRange(s, |s|) {
      forall a, b | 0 <= a < b < |s|
        ensures r[a] != r[b]
      {
        var a' := if a == i then j else if a == j then i else a;
        var b' := if b == i then j else if b == j then i else b;
        assert r[a] == s[a'] && r[b] == s[b'] && a' != b';
      }
    }
  }

  /**
   * The index buffer of `GenerateAndRenderOffers`: `0 .. n-1`, then the
   * first three positions swapped with the drawn ones.
   */
  method ShuffledIndices(n: nat, swaps: seq<int>) returns (order: seq<int>)
    requires 3 <= n && |swaps| == 3 && DrawsFit(swaps, 3, n)
    ensures order == ShufflePrefix(Iota(n), swaps, 3)
    ensures IsPermutationOfRange(order, n)
  {
    var idx := new int[n];
    for i := 0 to n
      invariant forall k :: 0 <= k < i ==> idx[k] == k
    {
      idx[i] := i;
    }
    assert idx[..] == Iota(n);
    for i := 0 to 3
      invariant idx[..] == ShufflePrefix(Iota(n), swaps, i)
    {
      var swap := swaps[i];
      ghost var before := idx[..];
      idx[i], idx[swap] := idx[swap], idx[i];
      assert idx[..] == Swap(before, i, swap);
    }
    order := idx[..];
    ShufflePrefixPermutes(Iota(n), swaps, 3);
  }

  /** The order in which the eight upgrade types are dealt, given the three shuffle draws. */
  function OfferOrder(swaps: seq<int>): (order: seq<int>)
    requires DrawsFit(swaps, 3, 8)
    ensures IsPermutationOfRange(order, 8)
  {
    ShufflePrefixPermutes(Iota(8), swaps, 3);
    ShufflePrefix(Iota(8), swaps, 3)
  }

  // ---------------- applying an offer ----------------

  /** The stat field that an upgrade type feeds. */
  function StatOf(u: PlayerUpgrades, t: UpgradeType): real
    reads u
  {
    match t
    case MoveSpeed => u.moveSpeedPct
    case DodgeChance => u.dodgeChancePct
    case AttackSpeed => u.attackSpeedPct
    case XpGain => u.xpGainPct
    case MagnetRadius => u.magnetRadiusPct
    case Damage => u.damagePct
    case Health => u.healthBonusPct
    case HealthRegen => u.healthRegenHpPerSec
  }

  /** An offer well made: its value is the table's, its flag the type's. */
  predicate WellFormed(o: Offer) {
    o.value == ValuesByRarity(o.upgradeType)[RarityIndex(o.rarity)] && o.isPercent == IsPercentUpgrade(o.upgradeType)
  }

  /** The offer of one card: the table's value for the type and rarity, and the type's flag. */
  function MakeOffer(t: UpgradeType, rarity: Rarity): (o: Offer)
    ensures WellFormed(o) && o.upgradeType == t && o.rarity == rarity
  {
    Offer(t, rarity, ValuesByRarity(t)[RarityIndex(rarity)], IsPercentUpgrade(t))
  }

  class LevelUpOverlayController {
    const upgrades: PlayerUpgrades?
    const pauseOnLevelUp: bool
    /** The overlay and panel elements were found in the UI document. */
    const hasOverlay: bool
    const currentOffers: array<Offer>

    var isOpen: bool
    var didPause: bool
    var prevTimeScale: real
    /** `Time.timeScale`, the engine's global time scale. */
    var timeScale: real

    ghost predicate Valid()
      reads this
    {
      currentOffers.Length == 3 && (didPause ==> timeScale == 0.0)
    }

    constructor (upgrades: PlayerUpgrades?, pauseOnLevelUp: bool, hasOverlay: bool)
      ensures Valid() && fresh(currentOffers)
      ensures this.upgrades == upgrades && this.pauseOnLevelUp == pauseOnLevelUp && this.hasOverlay == hasOverlay
      ensures !isOpen && !didPause && prevTimeScale == 1.0 && timeScale == 1.0
      // C#'s `default(Offer)`: the first type and rarity, worth nothing, shown flat
      ensures forall i :: 0 <= i < 3 ==> currentOffers[i] == Offer(MoveSpeed, Normal, 0.0, false)
    {
      this.upgrades, this.pauseOnLevelUp, this.hasOverlay := upgrades, pauseOnLevelUp, hasOverlay;
      currentOffers := new Offer[3](_ => Offer(MoveSpeed, Normal, 0.0, false));
      isOpen, didPause, prevTimeScale, timeScale := false, false, 1.0, 1.0;
    }

    /**
     * `GenerateAndRenderOffers` (rendering left out): `swaps` are the three
     * shuffle draws, `rolls` the three rarity draws.
     */
    method GenerateOffers(swaps: seq<int>, rolls: seq<int>)
      requires Valid()
      requires |swaps| == 3 && DrawsFit(swaps, 3, 8)
      requires |rolls| == 3 && forall i :: 0 <= i < 3 ==> 0 <= rolls[i] < 100
      modifies currentOffers
      ensures forall i :: 0 <= i < 3 ==>
        currentOffers[i] == MakeOffer(AllTypes()[OfferOrder(swaps)[i]], RollRarity(rolls[i]))
      ensures forall i, j :: 0 <= i < j < 3 ==> currentOffers[i].upgradeType != currentOffers[j].upgradeType
    {
      var order := ShuffledIndices(|AllTypes()|, swaps);
      FillOffers(order, rolls);
    }

    /** One card per position: the type at that position of the shuffled order, the rarity rolled for it. */
    method FillOffers(order: seq<int>, rolls: seq<int>)
      requires Valid()
      requires IsPermutationOfRange(order, 8)
      requires |rolls| == 3 && forall i :: 0 <= i < 3 ==> 0 <= rolls[i] < 100
      modifies currentOffers
      ensures forall i :: 0 <= i < 3 ==> currentOffers[i] == MakeOffer(AllTypes()[order[i]], RollRarity(rolls[i]))
      ensures forall i, j :: 0 <= i < j < 3 ==> currentOffers[i].upgradeType != currentOffers[j].upgradeType
    {
      var all := AllTypes();
      for i := 0 to 3
        invariant forall k :: 0 <= k < i ==> currentOffers[k] == MakeOffer(all[order[k]], RollRarity(rolls[k]))
      {
        currentOffers[i] := MakeOffer(all[order[i]], RollRarity(rolls[i]));
      }
      forall i, j | 0 <= i < j < 3
        ensures currentOffers[i].upgradeType != currentOffers[j].upgradeType
      {
        assert order[i] != order[j];
      }
    }

    method Open(swaps: seq<int>, rolls: seq<int>)
      requires Valid()
      requires |swaps| == 3 && DrawsFit(swaps, 3, 8)
      requires |rolls| == 3 && forall i :: 0 <= i < 3 ==> 0 <= rolls[i] < 100
      modifies this, currentOffers
      ensures Valid()
      ensures isOpen == (old(isOpen) || hasOverlay)
      ensures didPause == old(didPause) && prevTimeScale == old(prevTimeScale) && timeScale == old(timeScale)
      ensures !hasOverlay ==> unchanged(currentOffers)
      // the cards dealt: the first three types of the shuffled order, each at its rolled rarity
      ensures hasOverlay ==> forall i :: 0 <= i < 3 ==>
        currentOffers[i] == MakeOffer(AllTypes()[OfferOrder(swaps)[i]], RollRarity(rolls[i]))
      ensures hasOverlay ==> forall i, j :: 0 <= i < j < 3 ==> currentOffers[i].upgradeType != currentOffers[j].upgradeType
      ensures hasOverlay ==> forall i :: 0 <= i < 3 ==> WellFormed(currentOffers[i])
    {
      if !hasOverlay {
        return;
      }
      isOpen := true;
      GenerateOffers(swaps, rolls);
    }

    /**
     * The end of the opening animation, as written: it always remembers the
     * current time scale before pausing, even when already paused.
     */
    method FinishOpenAnimationAsWritten()
      requires Valid()
      modifies this
      ensures Valid()
      ensures !pauseOnLevelUp ==> didPause == old(didPause) && prevTimeScale == old(prevTimeScale) && timeScale == old(timeScale)
      ensures pauseOnLevelUp ==> didPause && timeScale == 0.0 && prevTimeScale == old(timeScale)
      ensures pauseOnLevelUp && old(didPause) ==> prevTimeScale == 0.0
      ensures isOpen == old(isOpen)
    {
      if !pauseOnLevelUp {
        return;
      }
      prevTimeScale := timeScale;
      didPause := true;
      timeScale := 0.0;
    }

    /**
     * The end of the opening animation, corrected: a second opening while
     * already paused keeps the time scale remembered by the first.
     */
    method FinishOpenAnimation()
      requires Valid()
      modifies this
      ensures Valid()
      ensures !pauseOnLevelUp ==> didPause == old(didPause) && prevTimeScale == old(prevTimeScale) && timeScale == old(timeScale)
      ensures pauseOnLevelUp ==> didPause && timeScale == 0.0
      ensures pauseOnLevelUp && !old(didPause) ==> prevTimeScale == old(timeScale)
      ensures old(didPause) ==> prevTimeScale == old(prevTimeScale)
      ensures isOpen == old(isOpen)
    {
      if !pauseOnLevelUp || didPause {
        return;
      }
      prevTimeScale := timeScale;
      didPause := true;
      timeScale := 0.0;
    }

    method Resume()
      requires Valid()
      modifies this
      ensures Valid()
      ensures pauseOnLevelUp && old(didPause) ==> !didPause && timeScale == old(prevTimeScale)
      ensures !(pauseOnLevelUp && old(didPause)) ==> didPause == old(didPause) && timeScale == old(timeScale)
      ensures prevTimeScale == old(prevTimeScale) && isOpen == old(isOpen)
    {
      if !pauseOnLevelUp {
        return;
      }
      if !didPause {
        return;
      }
      timeScale := prevTimeScale;
      didPause := false;
    }

    /** Closing hides the overlay and resumes at once; a second `Close` does nothing. */
    method Close()
      requires Valid()
      modifies this
      ensures Valid()
      ensures !old(isOpen) ==> didPause == old(didPause) && timeScale == old(timeScale) && !isOpen
      ensures old(isOpen) ==> !isOpen
      ensures old(isOpen) && pauseOnLevelUp && old(didPause) ==> !didPause && timeScale == old(prevTimeScale)
      ensures old(isOpen) && !(pauseOnLevelUp && old(didPause)) ==> didPause == old(didPause) && timeScale == old(timeScale)
      ensures prevTimeScale == old(prevTimeScale)
    {
      if !isOpen {
        return;
      }
      isOpen := false;
      Resume();
    }

    /** The end of the closing animation resumes once more (the overlay is then hidden). */
    method FinishCloseAnimation()
      requires Valid()
      modifies this
      ensures Valid()
      ensures pauseOnLevelUp && old(didPause) ==> !didPause && timeScale == old(prevTimeScale)
      ensures !(pauseOnLevelUp && old(didPause)) ==> didPause == old(didPause) && timeScale == old(timeScale)
      ensures isOpen == old(isOpen) && prevTimeScale == old(prevTimeScale)
    {
      Resume();
    }

    method OnDisable()
      requires Valid()
      modifies this
      ensures Valid()
      ensures old(isOpen) && pauseOnLevelUp && old(didPause) ==> !didPause && timeScale == old(prevTimeScale)
      ensures !(old(isOpen) && pauseOnLevelUp && old(didPause)) ==> didPause == old(didPause) && timeScale == old(timeScale)
      ensures isOpen == old(isOpen) && prevTimeScale == old(prevTimeScale)
    {
      if isOpen {
        Resume();
      }
    }

    /** Adds the offer's value to the one stat field its type feeds. */
    static method ApplyUpgrade(u: PlayerUpgrades, offer: Offer)
      modifies u
      ensures StatOf(u, offer.upgradeType) == old(StatOf(u, offer.upgradeType)) + offer.value
      ensures forall t :: t != offer.upgradeType ==> StatOf(u, t) == old(StatOf(u, t))
    {
      match offer.upgradeType
      case MoveSpeed => u.moveSpeedPct := u.moveSpeedPct + offer.value;
      case DodgeChance => u.dodgeChancePct := u.dodgeChancePct + offer.value;
      case AttackSpeed => u.attackSpeedPct := u.attackSpeedPct + offer.value;
      case XpGain => u.xpGainPct := u.xpGainPct + offer.value;
      case MagnetRadius => u.magnetRadiusPct := u.magnetRadiusPct + offer.value;
      case Damage => u.damagePct := u.damagePct + offer.value;
      case Health => u.healthBonusPct := u.healthBonusPct + offer.value;
      case HealthRegen => u.healthRegenHpPerSec := u.healthRegenHpPerSec + offer.value;
    }

    /** A click on choice card `index`: apply that offer (when there are upgrades to apply it to), then close. */
    method OnPickUpgrade(index: int)
      requires Valid()
      modifies this, upgrades
      ensures Valid()
      ensures !(0 <= index < 3) ==> isOpen == old(isOpen) && didPause == old(didPause) && timeScale == old(timeScale)
      ensures !(0 <= index < 3) && upgrades != null ==> forall t :: StatOf(upgrades, t) == old(StatOf(upgrades, t))
      ensures 0 <= index < 3 && upgrades != null ==>
        var offer := currentOffers[index];
        StatOf(upgrades, offer.upgradeType) == old(StatOf(upgrades, offer.upgradeType)) + offer.value
        && forall t :: t != offer.upgradeType ==> StatOf(upgrades, t) == old(StatOf(upgrades, t))
      ensures 0 <= index < 3 ==> !isOpen
      ensures 0 <= index < 3 && old(isOpen) && pauseOnLevelUp && old(didPause) ==> !didPause && timeScale == old(prevTimeScale)
      ensures 0 <= index < 3 && !(old(isOpen) && pauseOnLevelUp && old(didPause)) ==>
        didPause == old(didPause) && timeScale == old(timeScale)
      ensures prevTimeScale == old(prevTimeScale)
    {
      if index < 0 || index >= currentOffers.Length {
        return;
      }
      var offer := currentOffers[index];
      if upgrades != null {
        ApplyUpgrade(upgrades, offer);
      }
      Close();
    }
  }

  /**
   * A burst of XP that gains two levels opens the overlay twice; as written,
   * the second opening remembers the paused scale, so picking an upgrade
   * leaves the game paused.
   */
  method TwoLevelUpsAsWritten(c: LevelUpOverlayController, swaps: seq<int>, rolls: seq<int>)
    requires c.Valid() && c.hasOverlay && c.pauseOnLevelUp
    requires !c.didPause && c.timeScale == 1.0
    requires |swaps| == 3 && DrawsFit(swaps, 3, 8)
    requires |rolls| == 3 && forall i :: 0 <= i < 3 ==> 0 <= rolls[i] < 100
    modifies c, c.currentOffers, c.upgrades
    ensures c.timeScale == 0.0
  {
    c.Open(swaps, rolls);
    c.Open(swaps, rolls);
    c.FinishOpenAnimationAsWritten();
    c.FinishOpenAnimationAsWritten();
    c.OnPickUpgrade(0);
    c.FinishCloseAnimation();
  }

  /** With the corrected opening, the same sequence resumes at the original scale. */
  method TwoLevelUpsCorrected(c: LevelUpOverlayController, swaps: seq<int>, rolls: seq<int>)
    requires c.Valid() && c.hasOverlay && c.pauseOnLevelUp
    requires !c.didPause && c.timeScale == 1.0
    requires |swaps| == 3 && DrawsFit(swaps, 3, 8)
    requires |rolls| == 3 && forall i :: 0 <= i < 3 ==> 0 <= rolls[i] < 100
    modifies c, c.currentOffers, c.upgrades
    ensures c.timeScale == 1.0 && !c.didPause
  {
    c.Open(swaps, rolls);
    c.Open(swaps, rolls);
    c.FinishOpenAnimation();
    c.FinishOpenAnimation();
    c.OnPickUpgrade(0);
    c.FinishCloseAnimation();
  }
}

=== FILE: mathf.dfy ===
/**
 * The parts of Unity's `Mathf` and vector arithmetic the game rules use, over
 * Dafny's `real` (single-precision rounding is not modelled).
 */
module Mathf {

  /** A point or direction in world space. */
  datatype Vec3 = Vec3(x: real, y: real, z: real)

  function Add(a: Vec3, b: Vec3): Vec3 {
    Vec3(a.x + b.x, a.y + b.y, a.z + b.z)
  }

  function Scale(a: Vec3, k: real): Vec3 {
    Vec3(a.x * k, a.y * k, a.z * k)
  }

  /** `(a - b).sqrMagnitude` */
  function SqrDistance(a: Vec3, b: Vec3): real {
    (a.x - b.x) * (a.x - b.x) + (a.y - b.y) * (a.y - b.y) + (a.z - b.z) * (a.z - b.z)
  }

  function MaxInt(a: int, b: int): int { if a >= b then a else b }
  function MinInt(a: int, b: int): int { if a <= b then a else b }
  function MaxReal(a: real, b: real): real { if a >= b then a else b }
  function MinReal(a: real, b: real): real { if a <= b then a else b }
  function Abs(a: real): real { if a >= 0.0 then a else -a }

  /** `x` is a whole number. */
  predicate IsIntegral(x: real) {
    x.Floor as real == x
  }

  /**
   * `Mathf.RoundToInt`: the nearest integer, halves going to the even
   * neighbour (the default mode of `Math.Round`).
   */
  function RoundToInt(x: real): (n: int)
    ensures x - 0.5 <= n as real <= x + 0.5
    ensures (n as real - x == 0.5 || x - n as real == 0.5) ==> n % 2 == 0
  {
    var f := x.Floor;
    var frac := x - f as real;
    if frac < 0.5 then f
    else if frac > 0.5 then f + 1
    else if f % 2 == 0 then f
    else f + 1
  }

  /** Rounding keeps every integer lower bound of its argument. */
  lemma RoundToIntAtLeast(x: real, k: int)
    requires x >= k as real
    ensures RoundToInt(x) >= k
  {
  }

  /** Rounding a whole number gives that number back. */
  lemma RoundToIntOfInt(k: int)
    ensures RoundToInt(k as real) == k
  {
  }

  /** Rounding keeps the order of its arguments. */
  lemma RoundToIntMonotone(x: real, y: real)
    requires x <= y
    ensures RoundToInt(x) <= RoundToInt(y)
  {
  }

  lemma MulPositive(a: real, b: real)
    requires a > 0.0 && b > 0.0
    ensures a * b > 0.0
  {
  }

  lemma MulNonNegative(a: real, b: real)
    requires a >= 0.0 && b >= 0.0
    ensures a * b >= 0.0
  {
  }

  /** `Mathf.FloorToInt` */
  function FloorToInt(x: real): (n: int)
    ensures n as real <= x < n as real + 1.0
  {
    x.Floor
  }

  /** `Mathf.Clamp01` */
  function Clamp01(x: real): (r: real)
    ensures 0.0 <= r <= 1.0
    ensures 0.0 <= x <= 1.0 ==> r == x
    ensures x < 0.0 ==> r == 0.0
    ensures x > 1.0 ==> r == 1.0
  {
    if x < 0.0 then 0.0 else if x > 1.0 then 1.0 else x
  }

  /** `Mathf.Clamp` on integers */
  function ClampInt(v: int, lo: int, hi: int): (r: int)
    requires lo <= hi
    ensures lo <= r <= hi
    ensures lo <= v <= hi ==> r == v
  {
    if v < lo then lo else if v > hi then hi else v
  }

  /** `Mathf.Epsilon`, the smallest positive subnormal single. */
  const Epsilon: real := 1.401298 / 1000000000000000000000000000000000000000000000.0

  /** `float.MaxValue` */
  const FloatMax: real := 340282350000000000000000000000000000000.0

  /**
   * `Mathf.Approximately`: the two values are within a relative tolerance of
   * one millionth, or within eight `Epsilon`s.
   */
  predicate Approximately(a: real, b: real) {
    Abs(b - a) < MaxReal(0.000001 * MaxReal(Abs(a), Abs(b)), Epsilon * 8.0)
  }

  /** `v` lies between `a` and `b`, in either order (what `Random.Range(a, b)` can return). */
  predicate Between(v: real, a: real, b: real) {
    MinReal(a, b) <= v <= MaxReal(a, b)
  }
}

=== FILE: player_upgrades.dfy ===
/**
 * The player's accumulated upgrade stats (`PlayerUpgrades`): plain fields
 * that the level-up overlay bumps, and the multipliers other components
 * derive from them.
 */
module Stats {
  import opened Mathf

  /**
   * The additive percentage rule shared by every multiplier:
   * `pct` per cent on top of the base value.
   */
  function PercentMultiplier(pct: real): (m: real)
    ensures pct == 0.0 ==> m == 1.0
    ensures m > 1.0 <==> pct > 0.0
    ensures m < 1.0 <==> pct < 0.0
    ensures m == 0.0 <==> pct == -100.0
  {
    1.0 + pct / 100.0
  }

  /** A larger percentage never gives a smaller multiplier. */
  lemma PercentMultiplierMonotone(p: real, q: real)
    requires p <= q
    ensures PercentMultiplier(p) <= PercentMultiplier(q)
  {
  }

  /** Percentages stack additively: two upgrades add their percentages, not their factors. */
  lemma PercentMultiplierStacks(p: real, q: real)
    ensures PercentMultiplier(p + q) == PercentMultiplier(p) + q / 100.0
  {
  }

  /**
   * A whole-number stat scaled by a percentage: `base * (1 + pct/100)`,
   * rounded to the nearest integer and never below one.
   */
  function ScaledAtLeastOne(base: int, pct: real): (n: int)
    ensures n >= 1
    ensures base >= 1 && pct == 0.0 ==> n == base
    // the nearest whole number to the scaled value, unless that falls below one
    ensures n > 1 ==> base as real * PercentMultiplier(pct) - 0.5 <= n as real <= base as real * PercentMultiplier(pct) + 0.5
    ensures n == 1 ==> base as real * PercentMultiplier(pct) <= 1.5
  {
    if pct == 0.0 then
      assert base as real * PercentMultiplier(pct) == base as real;
      RoundToIntOfInt(base);
      MaxInt(1, RoundToInt(base as real * PercentMultiplier(pct)))
    else
      MaxInt(1, RoundToInt(base as real * PercentMultiplier(pct)))
  }

  /** A larger percentage never gives a smaller scaled stat. */
  lemma ScaledAtLeastOneMonotone(base: int, p: real, q: real)
    requires base >= 0 && p <= q
    ensures ScaledAtLeastOne(base, p) <= ScaledAtLeastOne(base, q)
  {
    PercentMultiplierMonotone(p, q);
    MulNonNegative(base as real, PercentMultiplier(q) - PercentMultiplier(p));
    RoundToIntMonotone(base as real * PercentMultiplier(p), base as real * PercentMultiplier(q));
  }

  class PlayerUpgrades {
    var moveSpeedPct: real
    var attackSpeedPct: real
    var xpGainPct: real
    var magnetRadiusPct: real
    var dodgeChancePct: real
    var healthRegenHpPerSec: real
    var damagePct: real
    var healthBonusPct: real

    /** A fresh component: every stat starts at zero. */
    constructor ()
      ensures moveSpeedPct == 0.0 && attackSpeedPct == 0.0 && xpGainPct == 0.0
      ensures magnetRadiusPct == 0.0 && dodgeChancePct == 0.0 && healthRegenHpPerSec == 0.0
      ensures damagePct == 0.0 && healthBonusPct == 0.0
    {
      moveSpeedPct, attackSpeedPct, xpGainPct, magnetRadiusPct := 0.0, 0.0, 0.0, 0.0;
      dodgeChancePct, healthRegenHpPerSec, damagePct, healthBonusPct := 0.0, 0.0, 0.0, 0.0;
    }

    /** The dodge percentage as a probability. */
    function DodgeChance01(): (p: real)
      reads this
      ensures 0.0 <= p <= 1.0
      ensures dodgeChancePct <= 0.0 ==> p == 0.0
      ensures dodgeChancePct >= 100.0 ==> p == 1.0
      ensures 0.0 <= dodgeChancePct <= 100.0 ==> p * 100.0 == dodgeChancePct
    {
      Clamp01(dodgeChancePct / 100.0)
    }

    /** Regeneration from upgrades; a negative stat contributes nothing. */
    function HealthRegenPerSec(): (r: real)
      reads this
      ensures r >= 0.0
      ensures healthRegenHpPerSec >= 0.0 ==> r == healthRegenHpPerSec
    {
      MaxReal(0.0, healthRegenHpPerSec)
    }

    function MoveSpeedMultiplier(): real reads this { PercentMultiplier(moveSpeedPct) }
    function AttackSpeedMultiplier(): real reads this { PercentMultiplier(attackSpeedPct) }
    function XpGainMultiplier(): real reads this { PercentMultiplier(xpGainPct) }
    function MagnetRadiusMultiplier(): real reads this { PercentMultiplier(magnetRadiusPct) }
    function DamageMultiplier(): real reads this { PercentMultiplier(damagePct) }
    function HealthMultiplier(): real reads this { PercentMultiplier(healthBonusPct) }
  }
}

=== FILE: player_xp.dfy ===
/**
 * The player's level and experience (`PlayerXP`): a rounded quadratic
 * threshold curve and an `AddXP` that levels up as many times as a burst of
 * XP allows.
 */
module Progression {
  import opened Mathf

  /** What `PlayerXP` announces to its subscribers. */
  datatype XPEvent = LeveledUp | Changed

  /** `k` level-up announcements in a row. */
  function LevelUps(k: nat): (s: seq<XPEvent>)
    ensures |s| == k && forall i :: 0 <= i < k ==> s[i] == LeveledUp
  {
    if k == 0 then [] else LevelUps(k - 1) + [LeveledUp]
  }

  /** The threshold curve: XP needed to leave level `lvl`, for a given tuning. */
  function Curve(baseXP: int, linear: real, quadratic: real, lvl: int): int {
    var x := (lvl - 1) as real;
    RoundToInt(baseXP as real + linear * x + quadratic * x * x)
  }

  /** From level `lvl0` on, every level costs at least one XP, so `AddXP`'s loop always ends. */
  ghost predicate PaysFrom(baseXP: int, linear: real, quadratic: real, lvl0: int) {
    forall l :: l >= lvl0 ==> Curve(baseXP, linear, quadratic, l) >= 1
  }

  /** The growth terms vanish at level 1 and are non-negative past it. */
  lemma CurveGrowth(baseXP: int, linear: real, quadratic: real, lvl: int)
    ensures lvl == 1 ==> Curve(baseXP, linear, quadratic, lvl) == baseXP
    ensures linear >= 0.0 && quadratic >= 0.0 && lvl >= 1 ==> Curve(baseXP, linear, quadratic, lvl) >= baseXP
  {
    var x := (lvl - 1) as real;
    if lvl == 1 {
      assert baseXP as real + linear * x + quadratic * x * x == baseXP as real;
      RoundToIntOfInt(baseXP);
    }
    if linear >= 0.0 && quadratic >= 0.0 && lvl >= 1 {
      MulNonNegative(linear, x);
      MulNonNegative(quadratic, x);
      MulNonNegative(quadratic * x, x);
      RoundToIntAtLeast(baseXP as real + linear * x + quadratic * x * x, baseXP);
    }
  }

  /** A non-negative curve over a base of at least one XP pays from any level from 1 on. */
  lemma TunedCurvePays(baseXP: int, linear: real, quadratic: real, lvl0: int)
    requires baseXP >= 1 && linear >= 0.0 && quadratic >= 0.0 && lvl0 >= 1
    ensures PaysFrom(baseXP, linear, quadratic, lvl0)
  {
    forall l | l >= lvl0
      ensures Curve(baseXP, linear, quadratic, l) >= 1
    {
      CurveGrowth(baseXP, linear, quadratic, l);
    }
  }

  /**
   * A curve that is zero everywhere never lets `AddXP`'s loop end: the level
   * costs nothing, so after each pass the XP still reaches the next threshold.
   */
  lemma ZeroCurveNeverStops(currentXP: int, lvl: int)
    requires currentXP >= 0
    ensures Curve(0, 0.0, 0.0, lvl) == 0
    ensures currentXP >= Curve(0, 0.0, 0.0, lvl)
    ensures currentXP - Curve(0, 0.0, 0.0, lvl) >= Curve(0, 0.0, 0.0, lvl + 1)
    ensures !PaysFrom(0, 0.0, 0.0, lvl)
  {
    forall l | true
      ensures Curve(0, 0.0, 0.0, l) == 0
    {
      var x := (l - 1) as real;
      assert 0 as real + 0.0 * x + 0.0 * x * x == 0 as real;
      RoundToIntOfInt(0);
    }
  }

  class PlayerXP {
    var level: int
    var currentXP: int
    var xpToNextLevel: int

    // tuning of the curve; no method changes them
    const baseXP: int
    const linear: real
    const quadratic: real

    /** Every `Changed` and `LeveledUp` raised so far, in order. */
    ghost var events: seq<XPEvent>

    /** The curve is non-negative over a base of at least one XP. */
    predicate Tuned() {
      baseXP >= 1 && linear >= 0.0 && quadratic >= 0.0
    }

    ghost predicate Valid()
      reads this
    {
      PaysFrom(baseXP, linear, quadratic, level) && xpToNextLevel == GetXPToNextLevel(level)
    }

    /**
     * `Awake`: the threshold is the curve at the starting level. The curve must
     * cost at least one XP per level from there on.
     */
    constructor Awake(level0: int, currentXP0: int, baseXP: int, linear: real, quadratic: real)
      requires PaysFrom(baseXP, linear, quadratic, level0)
      ensures Valid()
      ensures level == level0 && currentXP == currentXP0 && events == []
      ensures this.baseXP == baseXP && this.linear == linear && this.quadratic == quadratic
      ensures xpToNextLevel == Curve(baseXP, linear, quadratic, level0)
    {
      this.baseXP, this.linear, this.quadratic := baseXP, linear, quadratic;
      level, currentXP := level0, currentXP0;
      new;
      xpToNextLevel := GetXPToNextLevel(level);
      events := [];
    }

    /** XP needed to leave level `lvl`. */
    function GetXPToNextLevel(lvl: int): (r: int)
      ensures Tuned() && lvl >= 1 ==> r >= baseXP
      ensures lvl == 1 ==> r == baseXP
    {
      CurveGrowth(baseXP, linear, quadratic, lvl);
      Curve(baseXP, linear, quadratic, lvl)
    }

    /** Total XP spent climbing from level `lo` to level `hi`. */
    function Consumed(lo: int, hi: int): int
      decreases hi - lo
    {
      if hi <= lo then 0 else Consumed(lo, hi - 1) + GetXPToNextLevel(hi - 1)
    }

    /** Every level climbed costs at least `baseXP`. */
    lemma {:induction false} ConsumedAtLeast(lo: int, hi: int)
      requires Tuned() && 1 <= lo <= hi
      ensures Consumed(lo, hi) >= (hi - lo) * baseXP
      decreases hi - lo
    {
      if hi > lo {
        ConsumedAtLeast(lo, hi - 1);
        assert (hi - lo) * baseXP == (hi - 1 - lo) * baseXP + baseXP;
      }
    }

    /** Climbing in two stretches costs what climbing in one does. */
    lemma {:induction false} ConsumedSplit(lo: int, mid: int, hi: int)
      requires lo <= mid <= hi
      ensures Consumed(lo, hi) == Consumed(lo, mid) + Consumed(mid, hi)
      decreases hi - mid
    {
      if hi > mid {
        ConsumedSplit(lo, mid, hi - 1);
      }
    }

    /**
     * What one `AddXP(amount)` does: nothing at all for a non-positive amount;
     * otherwise the XP is conserved across the levels climbed, the leftover is
     * below the new threshold, and one `LeveledUp` per level is followed by a
     * single `Changed`.
     */
    twostate predicate XPAdded(amount: int)
      reads this
    {
      if amount <= 0 then
        level == old(level) && currentXP == old(currentXP)
        && xpToNextLevel == old(xpToNextLevel) && events == old(events)
      else
        level >= old(level)
        && currentXP < xpToNextLevel
        && (level > old(level) ==> currentXP >= 0)
        && old(currentXP) + amount == Consumed(old(level), level) + currentXP
        && events == old(events) + LevelUps(level - old(level)) + [Changed]
    }

    method AddXP(amount: int)
      requires Valid()
      modifies this
      ensures Valid()
      ensures XPAdded(amount)
    {
      if amount <= 0 {
        return;
      }
      currentXP := currentXP + amount;
      while currentXP >= xpToNextLevel
        invariant Valid()
        invariant level >= old(level)
        invariant level > old(level) ==> currentXP >= 0
        invariant old(currentXP) + amount == Consumed(old(level), level) + currentXP
        invariant events == old(events) + LevelUps(level - old(level))
        decreases currentXP
      {
        currentXP := currentXP - xpToNextLevel;
        level := level + 1;
        xpToNextLevel := GetXPToNextLevel(level);
        events := events + [LeveledUp];
      }
      events := events + [Changed];
    }

    /** Fill fraction of the XP bar. */
    function Progress01(): (p: real)
      reads this
      ensures 0.0 <= p <= 1.0
      ensures xpToNextLevel <= 0 ==> p == 0.0
      ensures 0 <= currentXP <= xpToNextLevel && xpToNextLevel > 0 ==> p * xpToNextLevel as real == currentXP as real
    {
      if xpToNextLevel <= 0 then 0.0 else Clamp01(currentXP as real / xpToNextLevel as real)
    }
  }
}

=== FILE: ship_weapon.dfy ===
/**
 * The ship's auto-firing weapon (`ShipWeapon`): a fire cadence shortened by
 * attack speed, a damage value scaled by the damage upgrade, and a scan of
 * the physics query's hits for the closest one.
 */
module Weapon {
  import opened Wrappers
  import opened Mathf
  import opened Stats

  /** The shortest interval between two shots, in seconds. */
  const MinFireInterval: real := 0.05

  /**
   * Seconds between shots for a base interval and the attack-speed stat
   * (`None` when the ship has no upgrades).
   */
  function FireInterval(baseInterval: real, attackSpeedPct: Option<real>): (r: real)
    requires attackSpeedPct != Some(-100.0)
    ensures r >= MinFireInterval
    ensures attackSpeedPct == None || attackSpeedPct == Some(0.0) ==> r == MaxReal(MinFireInterval, baseInterval)
    ensures attackSpeedPct.Some? ==> r == MaxReal(MinFireInterval, baseInterval / PercentMultiplier(attackSpeedPct.value))
    // with a usable speed, the interval is the base shortened by the multiplier, unless that is below the floor
    ensures attackSpeedPct.Some? && attackSpeedPct.value > -100.0 ==>
      (r == MinFireInterval && baseInterval <= MinFireInterval * PercentMultiplier(attackSpeedPct.value))
      || (r > MinFireInterval && r * PercentMultiplier(attackSpeedPct.value) == baseInterval)
  {
    var mult := if attackSpeedPct.Some? && attackSpeedPct.value != 0.0 then 1.0 + attackSpeedPct.value / 100.0 else 1.0;
    MaxReal(MinFireInterval, baseInterval / mult)
  }

  /** More attack speed never slows the weapon down. */
  lemma FireIntervalMonotone(baseInterval: real, p: real, q: real)
    requires baseInterval >= 0.0 && -100.0 < p <= q
    ensures FireInterval(baseInterval, Some(q)) <= FireInterval(baseInterval, Some(p))
  {
    var mp, mq := PercentMultiplier(p), PercentMultiplier(q);
    PercentMultiplierMonotone(p, q);
    assert 0.0 < mp <= mq;
    MulNonNegative(baseInterval, mq - mp);
    assert baseInterval / mq * mq == baseInterval;
    assert baseInterval / mp * mp == baseInterval;
    DivideByLarger(baseInterval, mp, mq);
  }

  lemma DivideByLarger(a: real, m: real, n: real)
    requires a >= 0.0 && 0.0 < m <= n
    ensures a / n <= a / m
  {
    var x, y := a / n, a / m;
    assert x * n == a && y * m == a;
    if x > y {
      MulPositive(x - y, m);
      MulNonNegative(x, n - m);
      assert false;
    }
  }

  /** Hit `i` is a live collider closer than `float.MaxValue`. */
  predicate Candidate(hits: seq<Option<Vec3>>, p: Vec3, i: int) {
    0 <= i < |hits| && hits[i].Some? && SqrDistance(p, hits[i].value) < FloatMax
  }

  /** Hit `i` is the closest candidate, and the first among equally close ones. */
  ghost predicate IsClosest(hits: seq<Option<Vec3>>, p: Vec3, i: int) {
    Candidate(hits, p, i)
    && (forall j :: Candidate(hits, p, j) ==> SqrDistance(p, hits[i].value) <= SqrDistance(p, hits[j].value))
    && (forall j :: 0 <= j < i && Candidate(hits, p, j) ==> SqrDistance(p, hits[i].value) < SqrDistance(p, hits[j].value))
  }

  /** The closest hit is well defined: at most one index qualifies. */
  lemma ClosestIsUnique(hits: seq<Option<Vec3>>, p: Vec3, i: int, k: int)
    requires IsClosest(hits, p, i) && IsClosest(hits, p, k)
    ensures i == k
  {
  }

  /** What one `Update` fires: the chosen hit (or straight ahead) and the projectile's damage. */
  datatype Shot = Shot(target: Option<nat>, damage: int)

  class ShipWeapon {
    var nextFire: real
    var maxTargets: int
    /** The collider buffer the physics query fills: a hit's position, or `None` for a destroyed collider. */
    var hitsBuffer: array<Option<Vec3>>

    const baseFireInterval: real
    const baseDamage: int
    const hasFirePoint: bool
    const hasProjectilePrefab: bool
    const upgrades: PlayerUpgrades?

    /** `Awake`: remember the inspector's interval and damage as the bases, and size the buffer. */
    constructor Awake(fireRate: real, damage: int, maxTargets: int, hasFirePoint: bool, hasProjectilePrefab: bool, upgrades: PlayerUpgrades?)
      ensures baseFireInterval == fireRate && baseDamage == damage && this.maxTargets == maxTargets
      ensures this.hasFirePoint == hasFirePoint && this.hasProjectilePrefab == hasProjectilePrefab && this.upgrades == upgrades
      ensures nextFire == 0.0
      ensures fresh(hitsBuffer) && hitsBuffer.Length == MaxInt(8, maxTargets)
    {
      baseFireInterval, baseDamage, this.maxTargets := fireRate, damage, maxTargets;
      this.hasFirePoint, this.hasProjectilePrefab, this.upgrades := hasFirePoint, hasProjectilePrefab, upgrades;
      nextFire := 0.0;
      hitsBuffer := new Option<Vec3>[MaxInt(8, maxTargets)](_ => None);
    }

    /** `OnValidate`: at least one target, and a buffer of `max(8, maxTargets)` slots. */
    method OnValidate()
      modifies this
      ensures maxTargets == MaxInt(1, old(maxTargets))
      ensures hitsBuffer.Length == MaxInt(8, maxTargets)
      ensures old(hitsBuffer.Length) == MaxInt(8, maxTargets) ==> hitsBuffer == old(hitsBuffer)
      ensures old(hitsBuffer.Length) != MaxInt(8, maxTargets) ==> fresh(hitsBuffer)
      ensures nextFire == old(nextFire)
    {
      if maxTargets < 1 {
        maxTargets := 1;
      }
      if hitsBuffer.Length != MaxInt(8, maxTargets) {
        hitsBuffer := new Option<Vec3>[MaxInt(8, maxTargets)](_ => None);
      }
    }

    function GetFireInterval(): real
      reads upgrades
      requires upgrades != null ==> upgrades.attackSpeedPct != -100.0
    {
      FireInterval(baseFireInterval, if upgrades == null then None else Some(upgrades.attackSpeedPct))
    }

    /** Damage of one projectile: the base scaled by the damage upgrade, at least one. */
    function GetDamage(): (d: int)
      reads upgrades
      ensures d >= 1
      ensures upgrades == null && baseDamage >= 1 ==> d == baseDamage
      ensures upgrades != null ==> d == ScaledAtLeastOne(baseDamage, upgrades.damagePct)
    {
      if upgrades == null then
        RoundToIntOfInt(baseDamage);
        MaxInt(1, RoundToInt(baseDamage as real))
      else
        ScaledAtLeastOne(baseDamage, upgrades.damagePct)
    }

    /**
     * `TryGetTarget` over the first `count` slots of the buffer (the count the
     * physics query returned), seen from the ship's position `p`.
     */
    method TryGetTarget(p: Vec3, count: int) returns (best: Option<nat>)
      requires 0 <= count <= hitsBuffer.Length
      ensures !hasFirePoint ==> best == None
      ensures hasFirePoint ==> (best.Some? <==> exists j :: Candidate(hitsBuffer[..count], p, j))
      ensures best.Some? ==> IsClosest(hitsBuffer[..count], p, best.value)
    {
      if !hasFirePoint {
        return None;
      }
      if hitsBuffer.Length == 0 || count <= 0 {
        return None;
      }
      ghost var hits := hitsBuffer[..count];
      var closest := FloatMax;
      best := None;
      for i := 0 to count
        invariant best.None? ==> closest == FloatMax && forall j :: 0 <= j < i ==> !Candidate(hits, p, j)
        invariant best.Some? ==>
          best.value < i && Candidate(hits, p, best.value) && closest == SqrDistance(p, hits[best.value].value)
          && (forall j :: 0 <= j < i && Candidate(hits, p, j) ==> closest <= SqrDistance(p, hits[j].value))
          && (forall j :: 0 <= j < best.value && Candidate(hits, p, j) ==> closest < SqrDistance(p, hits[j].value))
      {
        var h := hitsBuffer[i];
        if h.None? {
          continue;
        }
        var d := SqrDistance(p, h.value);
        if d < closest {
          closest := d;
          best := Some(i);
        }
      }
    }

    /**
     * One frame at time `now`: when the cooldown is over, schedule the next
     * shot and fire at the closest hit (or straight ahead without one).
     */
    method Update(now: real, p: Vec3, count: int) returns (shot: Option<Shot>)
      requires upgrades != null ==> upgrades.attackSpeedPct != -100.0
      requires 0 <= count <= hitsBuffer.Length
      modifies this`nextFire
      ensures now < old(nextFire) ==> nextFire == old(nextFire) && shot == None
      ensures now >= old(nextFire) ==> nextFire == now + GetFireInterval() && nextFire >= now + MinFireInterval
      ensures shot.Some? <==> now >= old(nextFire) && hasFirePoint && hasProjectilePrefab
      ensures shot.Some? ==> shot.value.damage == GetDamage()
      ensures shot.Some? ==>
        (shot.value.target.Some? <==> exists j :: Candidate(hitsBuffer[..count], p, j))
        && (shot.value.target.Some? ==> IsClosest(hitsBuffer[..count], p, shot.value.target.value))
    {
      var interval := GetFireInterval();
      if now < nextFire {
        return None;
      }
      nextFire := now + interval;
      var target := TryGetTarget(p, count);
      if !hasFirePoint || !hasProjectilePrefab {
        return None;
      }
      shot := Some(Shot(target, GetDamage()));
    }
  }
}

=== FILE: upgrade_system.dfy ===
/**
 * The stand-alone upgrade tables (`UpgradeSystem`): seven upgrade types, four
 * rarities, the value of each (type, rarity) pair and the weighted rarity roll.
 */
module UpgradeSystem {

  datatype UpgradeType = MoveSpeed | DodgeChance | AttackSpeed | XpGain | MagnetRadius | Damage | Health
  datatype Rarity = Normal | Rare | Epic | Legendary

  /** `(int)rarity`: the enum's ordinal. */
  function RarityIndex(r: Rarity): (i: nat)
    ensures i < 4
    ensures r == Normal <==> i == 0
    ensures r == Legendary <==> i == 3
  {
    match r
    case Normal => 0
    case Rare => 1
    case Epic => 2
    case Legendary => 3
  }

  predicate StrictlyIncreasing(row: seq<real>) {
    forall i, j :: 0 <= i < j < |row| ==> row[i] < row[j]
  }

  /** `ValuesByRarity[t]`: Normal, Rare, Epic, Legendary. */
  function ValuesByRarity(t: UpgradeType): (row: seq<real>)
    ensures |row| == 4
    ensures StrictlyIncreasing(row)
    ensures row[0] > 0.0
  {
    match t
    case MoveSpeed => [5.0, 10.0, 15.0, 20.0]
    case DodgeChance => [2.0, 4.0, 6.0, 8.0]
    case AttackSpeed => [10.0, 15.0, 20.0, 25.0]
    case XpGain => [8.0, 16.0, 24.0, 32.0]
    case MagnetRadius => [10.0, 15.0, 20.0, 25.0]
    case Damage => [9.0, 15.0, 21.0, 28.0]
    case Health => [15.0, 20.0, 25.0, 30.0]
  }

  /** Every rarity of every type has a value, and a rarer tier is worth strictly more. */
  function GetValue(t: UpgradeType, r: Rarity): (v: real)
    ensures v > 0.0
    ensures v == ValuesByRarity(t)[RarityIndex(r)]
    ensures forall r' :: RarityIndex(r) < RarityIndex(r') ==> v < ValuesByRarity(t)[RarityIndex(r')]
  {
    ValuesByRarity(t)[RarityIndex(r)]
  }

  /** Shown as a percentage; damage is the flat one here. */
  function IsPercent(t: UpgradeType): bool {
    t != Damage
  }

  lemma DamageIsTheOnlyFlatUpgrade()
    ensures forall t :: !IsPercent(t) <==> t == Damage
  {
  }

  /** `RollRarity` given the draw `roll` of `rng.Next(0, 100)`. */
  function RollRarity(roll: int): (r: Rarity)
    requires 0 <= roll < 100
    ensures r == Normal <==> roll < 50
    ensures r == Rare <==> 50 <= roll < 80
    ensures r == Epic <==> 80 <= roll < 95
    ensures r == Legendary <==> 95 <= roll
  {
    if roll < 50 then Normal
    else if roll < 80 then Rare
    else if roll < 95 then Epic
    else Legendary
  }

  /** How many of the rolls `0 .. n-1` give rarity `r`. */
  function RollsGiving(r: Rarity, n: nat): nat
    requires n <= 100
  {
    if n == 0 then 0 else RollsGiving(r, n - 1) + (if RollRarity(n - 1) == r then 1 else 0)
  }

  function Clamp(v: int, lo: int, hi: int): int {
    if v < lo then lo else if v > hi then hi else v
  }

  /** How the count of each rarity grows along the rolls. */
  lemma {:induction false} RollsGivingUpTo(n: nat)
    requires n <= 100
    ensures RollsGiving(Normal, n) == Clamp(n, 0, 50)
    ensures RollsGiving(Rare, n) == Clamp(n - 50, 0, 30)
    ensures RollsGiving(Epic, n) == Clamp(n - 80, 0, 15)
    ensures RollsGiving(Legendary, n) == Clamp(n - 95, 0, 5)
  {
    if n > 0 {
      RollsGivingUpTo(n - 1);
    }
  }

  /** Out of the hundred equally likely rolls, the rarities take 50, 30, 15 and 5. */
  lemma RarityWeights()
    ensures RollsGiving(Normal, 100) == 50
    ensures RollsGiving(Rare, 100) == 30
    ensures RollsGiving(Epic, 100) == 15
    ensures RollsGiving(Legendary, 100) == 5
  {
    RollsGivingUpTo(100);
  }
}

=== FILE: wrappers.dfy ===
/** A value that may be missing: stands for a C# reference that may be null. */
module Wrappers {

  datatype Option<+T> = None | Some(value: T)

}

=== FILE: xp_orbs.dfy ===
/**
 * An XP orb (`XPOrb`): carries an amount, and when the ship touches it hands
 * the (upgrade-boosted) amount to the player's `PlayerXP` and is destroyed.
 */
module XPOrbs {
  import opened Wrappers
  import opened Mathf
  import opened Stats
  import opened Progression

  /**
   * XP granted for an orb worth `amount`; `xpGainPct` is the player's XP-gain
   * stat, or `None` when the ship has no `PlayerUpgrades`.
   */
  function GainedXP(amount: int, xpGainPct: Option<real>): (g: int)
    ensures xpGainPct == None || xpGainPct == Some(0.0) ==> g == amount
    ensures xpGainPct.Some? && xpGainPct.value != 0.0 ==>
      g >= 1
      && (g > 1 ==> amount as real * PercentMultiplier(xpGainPct.value) - 0.5 <= g as real <= amount as real * PercentMultiplier(xpGainPct.value) + 0.5)
      && (g == 1 ==> amount as real * PercentMultiplier(xpGainPct.value) <= 1.5)
  {
    match xpGainPct
    case None => amount
    case Some(pct) =>
      if pct == 0.0 then amount
      else MaxInt(1, RoundToInt(amount as real * PercentMultiplier(pct)))
  }

  /** A boost never lowers a positive orb's worth below its base amount when the stat is positive. */
  lemma GainedXPNotBelowAmount(amount: int, pct: real)
    requires amount >= 1 && pct > 0.0
    ensures GainedXP(amount, Some(pct)) >= amount
  {
    MulNonNegative(amount as real, pct / 100.0);
    assert amount as real * PercentMultiplier(pct) == amount as real + amount as real * (pct / 100.0);
    RoundToIntAtLeast(amount as real * PercentMultiplier(pct), amount);
  }

  class XPOrb {
    var amount: int

    constructor (amount: int)
      ensures this.amount == amount
    {
      this.amount := amount;
    }

    method SetAmount(v: int)
      modifies this
      ensures amount == v
    {
      amount := v;
    }

    /**
     * The ship (with `xp` and `upgrades` found in its parents, either maybe
     * missing) touches the orb. Returns whether the orb destroys itself.
     */
    method OnTriggerEnter(xp: PlayerXP?, upgrades: PlayerUpgrades?) returns (destroyed: bool)
      requires xp != null ==> xp.Valid()
      modifies xp
      ensures xp == null ==> !destroyed
      ensures xp != null ==> destroyed && xp.Valid()
      ensures xp != null ==>
        xp.XPAdded(GainedXP(amount, if upgrades == null then None else Some(old(upgrades.xpGainPct))))
    {
      if xp == null {
        return false;
      }
      var gained := GainedXP(amount, if upgrades == null then None else Some(upgrades.xpGainPct));
      xp.AddXP(gained);
      destroyed := true;
    }
  }
}
